=== FILE: README.md ===
# Particle render cluster — a Dafny model

This project models the sequential core of a small POV-Ray render cluster. The
cluster keeps its state in a MySQL database, which holds render jobs, their
frames, particles, textures, nodes and work threads. Worker processes take a
pending job, then render its frames one at a time, and a helper script stitches
the frame images into a video.

The model has three parts.

- **The store.** The `ClusterManager` operations of `inc/cluster.py` act on an
  immutable `Store`, which is one sequence of typed rows per table.
  - Each SQL statement becomes a filter, a map or an append on those sequences.
  - Auto-increment ids come from counters kept in the store.
  - One pass of `job_scheduler` is modelled as well (module `Cluster`; the row
    types are in `Tables`).
- **The worker.** The `__main__` block of `Render.py` is one method,
  `Worker.RunWorker`. It runs over the store, a map from file paths to file
  text, and a renderer whose exit code is an input. Its loop invariants record
  every status write, every renderer call and every scene file written.
- **The builders.**
  - the POV-Ray argument list of `CallRenderEngine`
  - the sphere lines of `format_particle_objects`
  - the marker replacement of `buildOutputFile`
  - the `{:04d}` frame file names
  - the ffmpeg argument list of `makeMP4.py`

  These are modules `Render` and `MakeMp4`. Python's `str(int)`, `{:04d}` and
  `str.replace` are modelled in `Text`.
  - The argument lists, `str(int)`, `{:04d}`, the file names and the sphere
    text each have a reader, and a lemma proves the round trip. For the
    sphere text this needs float text without `,`, `>` or a line break.
  - The marker replacement has no reader. Its lemmas state what it does to a
    template with no marker or with one marker.

Floating-point values (positions, sizes, memory, the antialias threshold) are
an abstract type `Base.Float`. Their text form is a function parameter `show`.

### What the code does

The model follows the code, including these behaviours:

- `insert_particle_data` does not reject a batch that names an unknown
  texture. It skips each such particle and stores the others, in input order.
- A worker claims a frame by reading `get_next_frame` and then writing
  `'in progress'`. This is not an atomic conditional update. There is no lease
  and no recovery of stale claims.
- `insert_node_info` always appends a row. It is not an upsert keyed by host
  name.
- `update_frame_status` filters on `frame_id` only, so it rewrites the rows
  with that frame number in every job.
- `get_next_frame` has no `ORDER BY`. The model takes the first pending row in
  storage order, but its contract promises only *some* pending row of the job,
  not the lowest frame number.
- `create_job` does not set a status. The model gives new jobs `'pending'`.
  This assumes a column default of `'pending'` on `render_jobs.status`: the
  schema is not part of this model, and without such a default
  `get_next_pending_job` could never return a job.

## Model

| member | source | states |
|---|---|---|
| Cluster.InsertFrames | inc/cluster.py:159-172 | appends exactly the rows (job, k, 'pending') for k = 1..n in order, returns the job id, leaves every other table and every earlier frame row as it was; a non-positive n appends nothing |
| Cluster.InsertFramesThenTotal | inc/cluster.py:164-166 | after `insert_frames(j, n)` the job's frame count grows by max(0, n), so on a job with no frame rows `get_total_frames(j)` is n and `fetch_frame_by_job(j)` returns the pending rows 1..n, in storage order |
| Cluster.GetTotalFrames | inc/cluster.py:398-400 | the count of the job's frame rows, whatever their status: exactly the number of rows `fetch_frame_by_job` returns, never more than the table holds |
| Cluster.TotalFramesIsFetchedCount | inc/cluster.py:143 | the count `get_total_frames` reports equals the number of rows `fetch_frame_by_job` returns |
| Cluster.FetchFrameByJob | inc/cluster.py:143-146 | a row is returned if and only if it is a frame row of the job, and each of the job's rows is returned as many times as it is stored |
| Cluster.UpdateFrameStatus | inc/cluster.py:185-188 | every frame row whose frame number matches, in any job and whatever its previous status, takes the new status; every other row, the row count and all other tables are unchanged |
| Cluster.UpdateLastWriteWins | inc/cluster.py:185-188 | two updates of the same frame number equal the second update alone |
| Cluster.UpdatesCommute | inc/cluster.py:185-188 | updates of different frame numbers commute |
| Cluster.GetNextFrame | inc/cluster.py:230-233 | at most one frame id; empty exactly when the job has no pending row; a returned id names a pending row of that job; the query only reads the store |
| Cluster.PendingCountPositive | inc/cluster.py:230 | the job has a pending row exactly when its pending count is positive |
| Cluster.GetNextPendingJob | inc/cluster.py:331-340 | at most one row; empty exactly when no job is pending; otherwise a stored pending job whose id is no larger than any pending job's |
| Cluster.CreateJob | inc/cluster.py:212-222 | appends one job row under the next id with the given settings and status 'pending', returns that id, and changes nothing else |
| Cluster.CreateJobFreshId | inc/cluster.py:220-222 | the id handed out belongs to no earlier job, and the counters stay ahead of every key |
| Cluster.CreateJobThenNextPending | inc/cluster.py:331-340 | after `create_job` some job is pending; when no other job was pending the new one is the one `get_next_pending_job` returns, and otherwise its answer does not change, since the new id is above every stored one |
| Cluster.LookupTexture | inc/cluster.py:102-107 | an id stored under the name; nothing exactly when no texture has that name |
| Cluster.ResolveBatch | inc/cluster.py:104-127 | at most one row per particle, and one for every particle exactly when every name resolves; each row carries the job, the frame and an existing texture id (which particles give rows, and with which fields, is stated by `Cluster.ResolveBatchAppend` and `Cluster.ResolveBatchSingle`) |
| Cluster.InsertParticleData | inc/cluster.py:104-127 | appends exactly the rows of the resolved batch after the existing ones, which stay unchanged; adds at most one row per input, each for the given job and frame, and changes no other table |
| Cluster.ResolveBatchAppend | inc/cluster.py:104-127 | the rows of a batch are the rows of its first part followed by the rows of the rest, so each particle is handled on its own and input order is kept |
| Cluster.ResolveBatchSingle | inc/cluster.py:106-127 | a particle whose texture name is stored gives one row with its own id, position, velocity and size, the job, the frame and that texture's id; an unknown name gives no row |
| Cluster.MixedBatch | inc/cluster.py:109-111 | an unknown texture name in the middle of a batch drops only that particle: the store gains the rows of the particles before it followed by those after it |
| Cluster.BatchAllResolved | inc/cluster.py:113-127 | when every name resolves, the k-th new row is the k-th input with the job, the frame and its texture id |
| Cluster.BatchNoneResolved | inc/cluster.py:109-111 | a batch in which no name resolves leaves the store as it was |
| Cluster.GetParticles | inc/cluster.py:372-381 | every returned view is a stored particle of that job, frame and texture id, shown with a name stored for that texture id; no texture row means no result |
| Cluster.GetParticlesKeyed | inc/cluster.py:372-381 | with unique texture ids and unique texture names, the result is exactly the matching stored particles, in storage order, each shown with the texture's name |
| Cluster.LookupKeyed | inc/cluster.py:102-107 | with unique texture ids and names, a name resolves to a texture's id if and only if it is that texture's name |
| Cluster.InsertThenGetParticles | inc/cluster.py:104-127 | storing a batch for a frame that had no particles of texture t, then reading texture t back, gives the batch's particles with that texture name, in input order |
| Cluster.GetTextures | inc/cluster.py:383-389 | the textures table, as stored: exactly the stored rows, each as many times as it is stored |
| Cluster.GetTexturesResolve | inc/cluster.py:383-389 | every name `get_textures` lists resolves in `insert_particle_data`'s lookup; with unique ids and unique names, it resolves to the listed row's id and to no other |
| Cluster.InsertNodeInfo | inc/cluster.py:281-288 | appends exactly one node row with the given host facts, status and role under the next node id; nothing else changes |
| Cluster.RegisterAddsRow | inc/cluster.py:281-288 | registration is not an upsert: a host name already present gets one more row |
| Cluster.GetActiveRenderNodes | inc/cluster.py:240-244 | a node is returned if and only if it is stored with role 'render' and status 'active' |
| Cluster.RegisterThenActive | inc/cluster.py:240 | a node registered with status 'active' and role 'render' is listed after the earlier ones; any other registration leaves the list as it was |
| Cluster.CreateWorkThreads | inc/cluster.py:315-322 | appends one (node, job, frame) row per frame id, in order, and changes nothing else |
| Cluster.WorkThreadsAssigned | inc/cluster.py:320-321 | the node gains one work thread per frame id, duplicates included |
| Cluster.SchedulerStep | inc/cluster.py:406-413 | finds a job if and only if one is queued, and then it is the job of the first queued row; every queue row of that job becomes 'processing', every other queue row stays as it was, and the row count is kept; with none the store is unchanged; only the queue table changes |
| Cluster.SchedulerProgress | inc/cluster.py:406-413 | each pass that finds a job leaves strictly fewer queued rows |
| Render.RenderCommand | Render.py:31-52 | the list is engine path, "/Exit", "+I"+in, "+O"+out, "+W"+w, "+H"+h, "+Q"+q, then "+A" and "+R"+depth only when antialias is "on", so it has 9 elements or 7 |
| Render.RenderCommandRoundTrip | Render.py:39-52 | reading the list back gives the input file, output file, width, height, quality and (when on) the antialias depth it was built from |
| Render.SphereLine | Render.py:76 | one particle's text ends in a line break, which is its only one when numbers print without line breaks; with plain float text the rest reads back as the particle's x, y, z and size texts |
| Render.SphereBodyText | Render.py:76 | the line is `sphere { <x, y, z> , size, 1 }` with the particle's position and size as Python prints them |
| Render.SphereBodyRoundTrip | Render.py:76 | reading a sphere line back gives the texts of the particle's x, y, z and size, when float text holds no `,`, `>` or line break |
| Render.FormatParticleObjects | Render.py:74-79 | the empty string exactly for an empty particle list |
| Render.FormatSingle | Render.py:74-79 | a one-particle list gives exactly that particle's sphere line |
| Render.ParticleObjectsRoundTrip | Render.py:74-79 | reading the particle text back line by line gives, as the k-th line, the k-th particle's x, y, z and size texts, so there is one sphere line per particle in input order |
| Render.FormatAppend | Render.py:74-79 | the text of two lists is the text of the first followed by the text of the second, so the lines keep input order |
| Render.OneLinePerParticle | Render.py:76-79 | when numbers print without line breaks, the text has exactly one line break per particle |
| Render.SceneText | Render.py:96 | a template without the marker is left unchanged |
| Render.SceneWithOneMarker | Render.py:96 | a template with one marker has it replaced by the particle text and keeps everything around it |
| Text.ReplaceFirst | Render.py:96 | `str.replace` replaces the first marker and continues after it, so every occurrence is replaced |
| Render.PngPath | Render.py:134 | stripping the job's `output/{job}/NewBegining_frame-` prefix from the image path leaves the `{:04d}` text of the frame number |
| Render.PovPath | Render.py:132-133 | stripping ".pov" from the scene path leaves the image path |
| Render.FrameNumberInName | Render.py:132-134 | the image path is the job's directory and stem followed by the frame number as at least four characters that read back as that number; the scene path is the image path plus ".pov" |
| Render.FrameFilesDistinct | Render.py:132-134 | different frame numbers never share a scene file or an image file |
| Text.FormatFourDigits | Render.py:132-134 | `{:04d}` is at least four characters and as long as `str(n)` when that is longer; digits for n >= 0, a minus sign followed by digits otherwise |
| Text.FourDigitsRoundTrip | Render.py:132-134 | the `{:04d}` text of every integer reads back as that integer |
| Text.IntToString | Render.py:44-52 | `str(i)` is non-empty, all digits exactly when i >= 0, and a minus sign followed by digits exactly when i < 0, with no leading zero in either case |
| Text.IntToStringRoundTrip | makeMP4.py:20-22 | `str(i)` of every integer reads back as that integer |
| MakeMp4.FfmpegCommand | makeMP4.py:18-26 | 12 elements, "ffmpeg" first and `/nfs/{job}/{job}.mp4` last |
| MakeMp4.FfmpegCommandFlags | makeMP4.py:14-24 | "-framerate" is followed by str(fps), "-i" by `/nfs/{job}/frame_%04d.png`, "-frames:v" by str(total_frames), "-c:v" by "libx264" and "-pix_fmt" by "yuv420p" |
| MakeMp4.FfmpegCommandRoundTrip | makeMP4.py:12-28 | reading the list back gives the job name, frame rate and frame count it was built from |
| Worker.FinalStatus | Render.py:149-153 | the recorded status is 'rendered' exactly for exit code 0 and 'error' otherwise, never 'pending' or 'in progress' |
| Worker.WriteSceneGroups | Render.py:143-147 | the texture loop writes no file but the frame's scene file |
| Worker.SceneFileHoldsLastGroup | Render.py:141-147 | writing the texture groups in turn leaves the scene file holding the template filled with the last non-empty group only, and writes nothing when every group is empty |
| Worker.LastNonEmptyGroupIsLast | Render.py:143-147 | that group is non-empty and every later group is empty; there is none exactly when every group is empty |
| Worker.FreshJobFramesAllPending | inc/cluster.py:164-166 | frames inserted for a job that had none are all pending, have distinct numbers, and number as many as `get_total_frames` counts |
| Worker.UpdateRemovesPending | Render.py:138-153 | moving a pending frame of the job to 'rendered' or 'error' removes at least one pending row of the job |
| Worker.UpdateRemovesOnePending | Render.py:138-153 | with distinct frame numbers it removes exactly one |
| Worker.RowsStep | Render.py:130-153 | a frame still pending was never rendered in this run and was pending at the start; rendering it keeps the row record on track |
| Worker.ScenesStep | Render.py:141-147 | rendering a new frame writes its own scene file and leaves every other file, including the earlier frames' scene files, unchanged |
| Worker.RenderFrame | Render.py:138-153 | one pass: 'in progress', scene file, renderer, then the outcome; every record of the run stays on track and only the frame table changes |
| Worker.LoopDone | Render.py:129 | after `get_total_frames` passes the job has no pending frame, and with distinct frame numbers every row of the job was pending |
| Worker.LoopStalled | Render.py:130 | when pending frames run out early and the frame numbers are distinct, not every row of the job was pending |
| Worker.RunWorker | Render.py:111-153 | registers the node first; takes the pending job with the smallest id, or stops with the `jobDetails[0]` failure when none; runs at most `get_total_frames` passes and stops with the `[0]` failure exactly when pending frames run out early; each pass writes 'in progress', calls the renderer with that frame's argument list and records 'rendered' or 'error'; rendered frames are distinct pending frames of the job, their rows hold the outcome and all other rows are untouched; the job is left with no pending frame; with distinct frame numbers it finishes exactly when every row of the job was pending; each rendered frame's scene file holds its last non-empty group and the worker writes no other file |

## Left out

- MySQL connection handling is not modelled: `connect`, `disconnect`, cursors, commits, rollbacks and every `MySQLdb.Error` path. These are I/O, so each operation is modelled as if it succeeds.
- Host probing is not modelled. `get_node_info` (socket, psutil) and `detect_povray_path` (platform, `which`) are environment probes. Their results are parameters: `Worker.HostInfo`, and the engine path of `Render.RenderCommand`.
- Process invocation is not modelled. `subprocess.run` in `CallRenderEngine` becomes the `renderer` input of `Worker.RunWorker`, which gives the exit code. `run_ffmpeg_command` is external and left out.
- Filesystem effects are not modelled:
  - `create_outputDirectory`
  - the read of the template file (its text is a parameter)
  - `.env` loading (the connection settings are never used by the logic)
  - The scene-file writes of `buildOutputFile` are kept, as updates to a map from paths to text.
- `remove_extension` is left out because it wraps `os.path.splitext`. The template's base name `NewBegining` is a constant, `Render.TemplateBase`.
- `inc/particles.py` is not part of this model. It is random sampling and floating-point physics.
- `ParticleGen.py` is not part of this model. It calls names the repository does not define.
- The top level of `makeMP4.py` is not part of this model. It calls `get_job_data`, which is not defined.
- Concurrency is not modelled: several workers sharing the store, and the race between `get_next_frame` and the following status write. The model runs one worker at a time, as the code's sequential logic does.
- `job_scheduler`'s endless loop and its `sleep` are left out. One pass is `Cluster.SchedulerStep`.
- Progress and error printing are left out.
- Database constraints the code never checks are not enforced by the operations: primary keys and uniqueness in the schema. `Tables.TexturesKeyed` and `Tables.KeysBelowCounters` state them where a lemma needs them.
- Result order of SQL queries without `ORDER BY` is not known. The model returns rows in storage order. Most contracts promise no more than the SQL does. These rows assume storage order:
  - `Cluster.GetParticlesKeyed` and `Cluster.InsertThenGetParticles` (the order of `get_particles`)
  - `Cluster.RegisterThenActive` (the order of `get_active_render_nodes`)
  - `Cluster.SchedulerStep` (which queued row `LIMIT 1` picks)
  - `Cluster.InsertFramesThenTotal` (its last clause fixes the row order of `fetch_frame_by_job`, whose query at inc/cluster.py:143 has no `ORDER BY`)
  - `Cluster.InsertParticleData`, `Cluster.ResolveBatchSingle` and `Cluster.BatchAllResolved` (when two texture rows share a name, `LookupTexture` takes the first stored one, while `fetchone()` at inc/cluster.py:102-107 may return either; under `Tables.TexturesKeyed` the choice does not arise)
  - `Worker.RunWorker`, `Worker.SceneFileHoldsLastGroup` and `Worker.LastNonEmptyGroupIsLast` (the order of `get_textures`, which decides which group is written last)
  - `Worker.RunWorker` and `Worker.ScenesStep` (the order of `get_particles`, which decides the order of the sphere lines in each scene file)
- String comparison in SQL is modelled as exact equality. MySQL's usual collations ignore case and trailing spaces in the filters `texture_name = %s`, `status = 'pending'`, `status = 'queued'`, `role = 'render'` and `status = 'active'`. The model does not.
- Crashes in the middle of a loop pass are not modelled: the model's renderer always returns an exit code. In the code, each of these crashes leaves the frame's row 'in progress', which no later `get_next_frame` returns:
  - `detect_povray_path` exits when `which povray` fails (Render.py:19-27), and it is called only after the 'in progress' write.
  - The template read raises when the file is missing (Render.py:93).
  - `subprocess.run` raises when the engine cannot be started (Render.py:56).
- Rows are modelled with the columns the code's INSERT statements name. For `render_jobs`, the id and `status` are added. Other columns a `SELECT *` may return (inc/cluster.py:143, 240, 332) are not modelled, because the schema is not part of this model and no code reads them.
- Worker.RunWorker: the image POV-Ray writes at the `+O` path (Render.py:43, with the path built at Render.py:134) is not in the file map. The renderer is a parameter, so the model states only the files the worker itself writes.
- Cluster.GetNextFrame: does not promise the lowest frame number, because the query has no `ORDER BY`.
- Render.FormatParticleObjects: states the line count only when the float text contains no line break, because float-to-text is a parameter.
- Render.SphereLine: reads back as the particle's numbers only when float text holds no `,`, `>` or line break, because float-to-text is a parameter. Python's `str` of a float never holds them.
- Render.ParticleObjectsRoundTrip: needs the same condition on float text, for the same reason.

=== FILE: base.dfy ===
/** Shared vocabulary: an optional value and the opaque stand-in for the
    floating-point columns of the store. */
module Base {

  /** A value that may be absent (a query that found no row, a parse that failed). */
  datatype Option<+T> = None | Some(value: T)

  /** The float columns (positions, velocities, sizes, memory, thresholds).
      Nothing is computed on them: they are stored, copied and shown. */
  type Float(==, !new)

  /** A point or a velocity: three float columns. */
  datatype Vec3 = Vec3(x: Float, y: Float, z: Float)

  function Max(a: int, b: int): int
  {
    if a >= b then a else b
  }
}

=== FILE: cluster.dfy ===
/** The `ClusterManager` operations of `inc/cluster.py` and one pass of its
    `job_scheduler` loop, each SQL statement written as a pure function from
    a database value to a new database value (and the rows it returns). */
module Cluster {
  import opened Base
  import opened Tables

  // ---------------------------------------------------------------- frames

  /** The rows `(jobId, lo, 'pending')`, ..., `(jobId, hi, 'pending')`. */
  function PendingRun(jobId: int, lo: int, hi: int): (r: seq<FrameRow>)
    ensures |r| == Max(0, hi - lo + 1)
    ensures forall k :: 0 <= k < |r| ==> r[k] == FrameRow(jobId, lo + k, Pending)
    decreases hi - lo
  {
    if lo > hi then [] else [FrameRow(jobId, lo, Pending)] + PendingRun(jobId, lo + 1, hi)
  }

  /** `insert_frames`: one `'pending'` row per frame number 1..numFrames,
      appended in order; returns the job id it was given. */
  function InsertFrames(s: Store, jobId: int, numFrames: int): (r: (Store, int))
    ensures r.1 == jobId
    ensures r.0.(frames := s.frames) == s
    ensures |r.0.frames| == |s.frames| + Max(0, numFrames)
    ensures r.0.frames[..|s.frames|] == s.frames
    ensures forall k :: |s.frames| <= k < |r.0.frames| ==>
      r.0.frames[k] == FrameRow(jobId, k - |s.frames| + 1, Pending)
  {
    (s.(frames := s.frames + PendingRun(jobId, 1, numFrames)), jobId)
  }

  /** `SELECT COUNT(*) ... WHERE job_id = j` over a list of frame rows. */
  function CountFrames(rows: seq<FrameRow>, jobId: int): (n: nat)
    ensures n <= |rows|
  {
    if rows == [] then 0
    else (if rows[0].jobId == jobId then 1 else 0) + CountFrames(rows[1..], jobId)
  }

  /** `get_total_frames`: how many frame rows the job has, whatever their status. */
  function GetTotalFrames(s: Store, jobId: int): (n: nat)
    ensures n <= |s.frames|
    ensures n == |FetchFrameByJob(s, jobId)|
  {
    TotalFramesIsFetchedCount(s.frames, jobId);
    CountFrames(s.frames, jobId)
  }

  /** The frame rows of one job, in storage order. */
  function FramesOfJob(rows: seq<FrameRow>, jobId: int): (r: seq<FrameRow>)
    ensures |r| <= |rows|
    ensures forall row :: row in r <==> row in rows && row.jobId == jobId
  {
    if rows == [] then []
    else (if rows[0].jobId == jobId then [rows[0]] else []) + FramesOfJob(rows[1..], jobId)
  }

  /** A job's rows keep their multiplicities; other jobs' rows are dropped. */
  lemma {:induction false} FramesOfJobCounts(rows: seq<FrameRow>, jobId: int)
    ensures forall row :: multiset(FramesOfJob(rows, jobId))[row]
                       == (if row.jobId == jobId then multiset(rows)[row] else 0)
  {
    if rows != [] {
      FramesOfJobCounts(rows[1..], jobId);
      assert rows == [rows[0]] + rows[1..];
    }
  }

  /** `fetch_frame_by_job`: every frame row of the job. */
  function FetchFrameByJob(s: Store, jobId: int): (r: seq<FrameRow>)
    ensures forall row :: row in r <==> row in s.frames && row.jobId == jobId
    ensures forall row :: multiset(r)[row] == (if row.jobId == jobId then multiset(s.frames)[row] else 0)
  {
    FramesOfJobCounts(s.frames, jobId);
    FramesOfJob(s.frames, jobId)
  }

  /** The count `get_total_frames` reports is the number of rows
      `fetch_frame_by_job` returns. */
  lemma {:induction false} TotalFramesIsFetchedCount(rows: seq<FrameRow>, jobId: int)
    ensures CountFrames(rows, jobId) == |FramesOfJob(rows, jobId)|
  {
    if rows != [] {
      TotalFramesIsFetchedCount(rows[1..], jobId);
    }
  }

  lemma {:induction false} CountFramesAppend(a: seq<FrameRow>, b: seq<FrameRow>, jobId: int)
    ensures CountFrames(a + b, jobId) == CountFrames(a, jobId) + CountFrames(b, jobId)
  {
    if a != [] {
      assert (a + b)[1..] == a[1..] + b;
      CountFramesAppend(a[1..], b, jobId);
    } else {
      assert a + b == b;
    }
  }

  lemma {:induction false} FramesOfJobAppend(a: seq<FrameRow>, b: seq<FrameRow>, jobId: int)
    ensures FramesOfJob(a + b, jobId) == FramesOfJob(a, jobId) + FramesOfJob(b, jobId)
  {
    if a != [] {
      assert (a + b)[1..] == a[1..] + b;
      FramesOfJobAppend(a[1..], b, jobId);
    } else {
      assert a + b == b;
    }
  }

  lemma {:induction false} PendingRunOfJob(jobId: int, lo: int, hi: int)
    ensures CountFrames(PendingRun(jobId, lo, hi), jobId) == Max(0, hi - lo + 1)
    ensures FramesOfJob(PendingRun(jobId, lo, hi), jobId) == PendingRun(jobId, lo, hi)
    decreases hi - lo
  {
    if lo <= hi {
      PendingRunOfJob(jobId, lo + 1, hi);
    }
  }

  /** After `insert_frames(j, n)` the job has n more frame rows; for a job
      that had none, `get_total_frames(j)` is n and `fetch_frame_by_job(j)`
      is exactly frames 1..n, all pending. */
  lemma InsertFramesThenTotal(s: Store, jobId: int, numFrames: int)
    ensures GetTotalFrames(InsertFrames(s, jobId, numFrames).0, jobId) == GetTotalFrames(s, jobId) + Max(0, numFrames)
    ensures FetchFrameByJob(s, jobId) == [] ==>
      && GetTotalFrames(InsertFrames(s, jobId, numFrames).0, jobId) == Max(0, numFrames)
      && FetchFrameByJob(InsertFrames(s, jobId, numFrames).0, jobId) == PendingRun(jobId, 1, numFrames)
  {
    var run := PendingRun(jobId, 1, numFrames);
    CountFramesAppend(s.frames, run, jobId);
    FramesOfJobAppend(s.frames, run, jobId);
    PendingRunOfJob(jobId, 1, numFrames);
    TotalFramesIsFetchedCount(s.frames, jobId);
  }

  /** `UPDATE frames SET status = s WHERE frame_id = f`, row by row. */
  function SetStatus(rows: seq<FrameRow>, frameId: int, status: string): (r: seq<FrameRow>)
    ensures |r| == |rows|
    ensures forall i :: 0 <= i < |rows| ==>
      r[i].jobId == rows[i].jobId && r[i].frameId == rows[i].frameId
    ensures forall i :: 0 <= i < |rows| ==>
      r[i].status == (if rows[i].frameId == frameId then status else rows[i].status)
  {
    if rows == [] then []
    else
      [if rows[0].frameId == frameId then rows[0].(status := status) else rows[0]]
      + SetStatus(rows[1..], frameId, status)
  }

  /** `update_frame_status`: every frame row whose `frame_id` matches takes the
      new status, in every job and whatever its previous status; no other row
      and no other table changes. */
  function UpdateFrameStatus(s: Store, frameId: int, status: string): (r: Store)
    ensures r.(frames := s.frames) == s
    ensures |r.frames| == |s.frames|
    ensures forall i :: 0 <= i < |s.frames| && s.frames[i].frameId == frameId ==>
      r.frames[i] == s.frames[i].(status := status)
    ensures forall i :: 0 <= i < |s.frames| && s.frames[i].frameId != frameId ==>
      r.frames[i] == s.frames[i]
  {
    s.(frames := SetStatus(s.frames, frameId, status))
  }

  /** Two updates of the same frame: the second one wins. */
  lemma UpdateLastWriteWins(s: Store, frameId: int, first: string, second: string)
    ensures UpdateFrameStatus(UpdateFrameStatus(s, frameId, first), frameId, second)
         == UpdateFrameStatus(s, frameId, second)
  {
    var a := UpdateFrameStatus(UpdateFrameStatus(s, frameId, first), frameId, second);
    var b := UpdateFrameStatus(s, frameId, second);
    assert a.frames == b.frames;
  }

  /** Updates of different frames touch disjoint rows, so they commute. */
  lemma UpdatesCommute(s: Store, f1: int, s1: string, f2: int, s2: string)
    requires f1 != f2
    ensures UpdateFrameStatus(UpdateFrameStatus(s, f1, s1), f2, s2)
         == UpdateFrameStatus(UpdateFrameStatus(s, f2, s2), f1, s1)
  {
    var a := UpdateFrameStatus(UpdateFrameStatus(s, f1, s1), f2, s2);
    var b := UpdateFrameStatus(UpdateFrameStatus(s, f2, s2), f1, s1);
    assert a.frames == b.frames;
  }

  /** There is a pending frame row of the job. */
  predicate HasPending(rows: seq<FrameRow>, jobId: int)
  {
    exists i :: 0 <= i < |rows| && rows[i].jobId == jobId && rows[i].status == Pending
  }

  /** The `frame_id` of the first pending row of the job, or nothing. */
  function FirstPendingFrame(rows: seq<FrameRow>, jobId: int): (r: seq<int>)
    ensures |r| <= 1
    ensures r == [] <==> !HasPending(rows, jobId)
    ensures r != [] ==> FrameRow(jobId, r[0], Pending) in rows
  {
    if rows == [] then []
    else if rows[0].jobId == jobId && rows[0].status == Pending then [rows[0].frameId]
    else
      var r := FirstPendingFrame(rows[1..], jobId);
      assert HasPending(rows[1..], jobId) ==> HasPending(rows, jobId);
      assert HasPending(rows, jobId) ==> HasPending(rows[1..], jobId) by {
        if HasPending(rows, jobId) {
          var i :| 0 <= i < |rows| && rows[i].jobId == jobId && rows[i].status == Pending;
          assert rows[1..][i - 1] == rows[i];
        }
      }
      r
  }

  /** `get_next_frame`: a read-only query returning at most one frame id; the
      frame belongs to the job and is pending, and the answer is empty
      exactly when the job has no pending frame. */
  function GetNextFrame(s: Store, jobId: int): (r: seq<int>)
    ensures |r| <= 1
    ensures r == [] <==> !HasPending(s.frames, jobId)
    ensures r != [] ==> FrameRow(jobId, r[0], Pending) in s.frames
  {
    FirstPendingFrame(s.frames, jobId)
  }

  /** How many rows of the job are pending. */
  function PendingCount(rows: seq<FrameRow>, jobId: int): (n: nat)
    ensures n <= CountFrames(rows, jobId)
  {
    if rows == [] then 0
    else
      (if rows[0].jobId == jobId && rows[0].status == Pending then 1 else 0)
      + PendingCount(rows[1..], jobId)
  }

  lemma {:induction false} PendingCountPositive(rows: seq<FrameRow>, jobId: int)
    ensures PendingCount(rows, jobId) > 0 <==> HasPending(rows, jobId)
  {
    if rows != [] {
      PendingCountPositive(rows[1..], jobId);
      if HasPending(rows, jobId) && !(rows[0].jobId == jobId && rows[0].status == Pending) {
        var i :| 0 <= i < |rows| && rows[i].jobId == jobId && rows[i].status == Pending;
        assert rows[1..][i - 1] == rows[i];
      }
      if HasPending(rows[1..], jobId) {
        var i :| 0 <= i < |rows[1..]| && rows[1..][i].jobId == jobId && rows[1..][i].status == Pending;
        assert rows[i + 1] == rows[1..][i];
      }
    }
  }

  // ------------------------------------------------------------------ jobs

  /** The pending job with the smallest id (the earliest stored among equals). */
  function MinPendingJob(jobs: seq<JobRow>): (r: seq<JobRow>)
    ensures |r| <= 1
    ensures r == [] <==> forall i :: 0 <= i < |jobs| ==> jobs[i].status != Pending
    ensures r != [] ==> r[0] in jobs && r[0].status == Pending
    ensures r != [] ==> forall i :: 0 <= i < |jobs| && jobs[i].status == Pending ==> r[0].jobId <= jobs[i].jobId
  {
    if jobs == [] then []
    else
      var rest := MinPendingJob(jobs[1..]);
      assert forall i :: 1 <= i < |jobs| ==> jobs[i] == jobs[1..][i - 1];
      if jobs[0].status == Pending && (rest == [] || jobs[0].jobId <= rest[0].jobId) then [jobs[0]]
      else rest
  }

  /** `get_next_pending_job`: `ORDER BY job_id LIMIT 1` over the pending jobs. */
  function GetNextPendingJob(s: Store): (r: seq<JobRow>)
    ensures |r| <= 1
    ensures r == [] <==> forall i :: 0 <= i < |s.jobs| ==> s.jobs[i].status != Pending
    ensures r != [] ==> r[0] in s.jobs && r[0].status == Pending
    ensures r != [] ==> forall i :: 0 <= i < |s.jobs| && s.jobs[i].status == Pending ==> r[0].jobId <= s.jobs[i].jobId
  {
    MinPendingJob(s.jobs)
  }

  /** `create_job`: appends one `render_jobs` row under the next
      auto-increment id (the column default makes its status `'pending'`)
      and returns that id (`lastrowid`). Nothing else changes. */
  function CreateJob(s: Store, jobName: string, numFrames: int, resX: int, resY: int, fps: int,
                     quality: int, antialias: string, antialiasDepth: int,
                     antialiasThreshold: Float, samplingMethod: int): (r: (Store, int))
    ensures r.1 == s.nextJobId
    ensures r.0.(jobs := s.jobs, nextJobId := s.nextJobId) == s
    ensures r.0.nextJobId > r.1
    ensures |r.0.jobs| == |s.jobs| + 1 && r.0.jobs[..|s.jobs|] == s.jobs
    ensures var row := r.0.jobs[|s.jobs|];
      && row.jobId == r.1 && row.jobName == jobName && row.status == Pending
      && row.totalFrames == numFrames && row.width == resX && row.height == resY
      && row.fps == fps && row.quality == quality && row.antialias == antialias
      && row.antialiasDepth == antialiasDepth && row.antialiasThreshold == antialiasThreshold
      && row.samplingMethod == samplingMethod
  {
    var row := JobRow(s.nextJobId, jobName, Pending, numFrames, resX, resY, fps, quality,
                      antialias, antialiasDepth, antialiasThreshold, samplingMethod);
    (s.(jobs := s.jobs + [row], nextJobId := s.nextJobId + 1), s.nextJobId)
  }

  /** The id `create_job` hands out is new, and the counters stay ahead of
      every stored key. */
  lemma CreateJobFreshId(s: Store, jobName: string, numFrames: int, resX: int, resY: int, fps: int,
                         quality: int, antialias: string, antialiasDepth: int,
                         antialiasThreshold: Float, samplingMethod: int)
    requires KeysBelowCounters(s)
    ensures var r := CreateJob(s, jobName, numFrames, resX, resY, fps, quality, antialias,
                               antialiasDepth, antialiasThreshold, samplingMethod);
      && (forall i :: 0 <= i < |s.jobs| ==> s.jobs[i].jobId != r.1)
      && KeysBelowCounters(r.0)
  {
  }

  /** Appending a row whose id is above every stored id does not change
      which pending job has the smallest id, when one is pending already. */
  lemma {:induction false} MinPendingAppendLarger(jobs: seq<JobRow>, row: JobRow)
    requires forall i :: 0 <= i < |jobs| ==> jobs[i].jobId < row.jobId
    requires MinPendingJob(jobs) != []
    ensures MinPendingJob(jobs + [row]) == MinPendingJob(jobs)
  {
    var all := jobs + [row];
    assert all[1..] == jobs[1..] + [row];
    assert forall i :: 1 <= i < |jobs| ==> jobs[i] == jobs[1..][i - 1];
    var rest := MinPendingJob(jobs[1..]);
    var rest' := MinPendingJob(jobs[1..] + [row]);
    if rest != [] {
      MinPendingAppendLarger(jobs[1..], row);
    } else if rest' != [] {
      assert rest'[0] == row by {
        var i :| 0 <= i < |jobs[1..] + [row]| && (jobs[1..] + [row])[i] == rest'[0];
        assert i == |jobs[1..]|;
      }
    }
  }

  /** A job just created is found by `get_next_pending_job` when no other
      job is pending; when one is, the answer does not change, because the
      new id is above every stored one. */
  lemma CreateJobThenNextPending(s: Store, jobName: string, numFrames: int, resX: int, resY: int,
                                 fps: int, quality: int, antialias: string, antialiasDepth: int,
                                 antialiasThreshold: Float, samplingMethod: int)
    requires KeysBelowCounters(s)
    ensures var r := CreateJob(s, jobName, numFrames, resX, resY, fps, quality, antialias,
                               antialiasDepth, antialiasThreshold, samplingMethod);
      && GetNextPendingJob(r.0) != []
      && (GetNextPendingJob(s) == [] ==> GetNextPendingJob(r.0) == [r.0.jobs[|s.jobs|]])
      && (GetNextPendingJob(s) != [] ==> GetNextPendingJob(r.0) == GetNextPendingJob(s))
  {
    var r := CreateJob(s, jobName, numFrames, resX, resY, fps, quality, antialias,
                       antialiasDepth, antialiasThreshold, samplingMethod);
    var row := r.0.jobs[|s.jobs|];
    assert r.0.jobs[|s.jobs|].status == Pending;
    if GetNextPendingJob(s) == [] {
      var got := GetNextPendingJob(r.0);
      assert forall i :: 0 <= i < |s.jobs| ==> r.0.jobs[i] == s.jobs[i];
      assert got[0] == row;
    } else {
      assert r.0.jobs == s.jobs + [row];
      MinPendingAppendLarger(s.jobs, row);
    }
  }

  // ------------------------------------------------------------- particles

  /** One element of the `particle_data` list given to `insert_particle_data`. */
  datatype ParticleInput = ParticleInput(particleId: int, position: Vec3, velocity: Vec3,
                                         size: Float, texture: string)

  /** `SELECT texture_id FROM textures WHERE texture_name = name`, first row. */
  function LookupTexture(textures: seq<TextureRow>, name: string): (r: Option<int>)
    ensures r.None? <==> forall i :: 0 <= i < |textures| ==> textures[i].textureName != name
    ensures r.Some? ==> TextureRow(r.value, name) in textures
  {
    if textures == [] then None
    else if textures[0].textureName == name then Some(textures[0].textureId)
    else
      assert forall i :: 1 <= i < |textures| ==> textures[i] == textures[1..][i - 1];
      LookupTexture(textures[1..], name)
  }

  /** The row `insert_particle_data` writes for one particle. */
  function ParticleRowOf(p: ParticleInput, jobId: int, frameId: int, textureId: int): ParticleRow
  {
    ParticleRow(p.particleId, frameId, jobId, p.position, p.velocity, p.size, textureId)
  }

  /** The rows written for a batch: particles whose texture name is unknown
      are skipped, the others keep their input order. */
  function ResolveBatch(textures: seq<TextureRow>, jobId: int, frameId: int,
                        ps: seq<ParticleInput>): (r: seq<ParticleRow>)
    ensures |r| <= |ps|
    ensures |r| == |ps| <==> forall i :: 0 <= i < |ps| ==> LookupTexture(textures, ps[i].texture).Some?
    ensures forall k :: 0 <= k < |r| ==> r[k].jobId == jobId && r[k].frameId == frameId
    ensures forall k :: 0 <= k < |r| ==> exists i :: 0 <= i < |textures| && textures[i].textureId == r[k].textureId
  {
    if ps == [] then []
    else
      assert forall i :: 1 <= i < |ps| ==> ps[i] == ps[1..][i - 1];
      var rest := ResolveBatch(textures, jobId, frameId, ps[1..]);
      match LookupTexture(textures, ps[0].texture)
      case None => rest
      case Some(t) =>
        var row := ParticleRowOf(ps[0], jobId, frameId, t);
        assert TextureRow(t, ps[0].texture) in textures;
        [row] + rest
  }

  /** `insert_particle_data`: appends the resolved rows after the existing
      ones; nothing stored before changes and no other table changes. */
  function InsertParticleData(s: Store, jobId: int, frameId: int, ps: seq<ParticleInput>): (r: Store)
    ensures r.(particles := s.particles) == s
    ensures |s.particles| <= |r.particles| <= |s.particles| + |ps|
    ensures r.particles[..|s.particles|] == s.particles
    ensures forall k :: |s.particles| <= k < |r.particles| ==>
      r.particles[k].jobId == jobId && r.particles[k].frameId == frameId
    ensures r.particles[|s.particles|..] == ResolveBatch(s.textures, jobId, frameId, ps)
  {
    var rows := ResolveBatch(s.textures, jobId, frameId, ps);
    assert (s.particles + rows)[|s.particles|..] == rows;
    s.(particles := s.particles + rows)
  }

  /** Resolving a batch piece by piece gives the rows of the whole batch:
      each particle contributes its own rows, in input order. */
  lemma {:induction false} ResolveBatchAppend(textures: seq<TextureRow>, jobId: int, frameId: int,
                                              a: seq<ParticleInput>, b: seq<ParticleInput>)
    ensures ResolveBatch(textures, jobId, frameId, a + b)
         == ResolveBatch(textures, jobId, frameId, a) + ResolveBatch(textures, jobId, frameId, b)
  {
    if a == [] {
      assert a + b == b;
    } else {
      assert (a + b)[1..] == a[1..] + b;
      ResolveBatchAppend(textures, jobId, frameId, a[1..], b);
    }
  }

  /** One particle gives one row, with its own fields and the id of its
      texture, when its texture name is stored, and no row otherwise. */
  lemma ResolveBatchSingle(textures: seq<TextureRow>, jobId: int, frameId: int, p: ParticleInput)
    ensures LookupTexture(textures, p.texture).None? ==> ResolveBatch(textures, jobId, frameId, [p]) == []
    ensures LookupTexture(textures, p.texture).Some? ==>
      ResolveBatch(textures, jobId, frameId, [p])
        == [ParticleRow(p.particleId, frameId, jobId, p.position, p.velocity, p.size,
                        LookupTexture(textures, p.texture).value)]
  {
    assert [p][1..] == [];
  }

  /** A batch with one unknown texture name in the middle: the particles
      before and after it are stored, that one is skipped. */
  lemma MixedBatch(s: Store, jobId: int, frameId: int,
                   a: seq<ParticleInput>, p: ParticleInput, b: seq<ParticleInput>)
    requires LookupTexture(s.textures, p.texture).None?
    ensures InsertParticleData(s, jobId, frameId, a + [p] + b).particles
         == s.particles + ResolveBatch(s.textures, jobId, frameId, a)
                        + ResolveBatch(s.textures, jobId, frameId, b)
  {
    var ra := ResolveBatch(s.textures, jobId, frameId, a);
    var rb := ResolveBatch(s.textures, jobId, frameId, b);
    ResolveBatchSingle(s.textures, jobId, frameId, p);
    ResolveBatchAppend(s.textures, jobId, frameId, a, [p]);
    assert ResolveBatch(s.textures, jobId, frameId, a + [p]) == ra + [] == ra;
    ResolveBatchAppend(s.textures, jobId, frameId, a + [p], b);
    assert ResolveBatch(s.textures, jobId, frameId, a + [p] + b) == ra + rb;
  }

  /** When every texture name resolves, the k-th new row is the k-th input
      particle with its own fields and its texture's id. */
  lemma {:induction false} BatchAllResolved(textures: seq<TextureRow>, jobId: int, frameId: int,
                                            ps: seq<ParticleInput>)
    requires forall i :: 0 <= i < |ps| ==> LookupTexture(textures, ps[i].texture).Some?
    ensures var r := ResolveBatch(textures, jobId, frameId, ps);
      && |r| == |ps|
      && forall k :: 0 <= k < |ps| ==>
           r[k] == ParticleRowOf(ps[k], jobId, frameId, LookupTexture(textures, ps[k].texture).value)
  {
    if ps != [] {
      assert forall i :: 1 <= i < |ps| ==> ps[i] == ps[1..][i - 1];
      BatchAllResolved(textures, jobId, frameId, ps[1..]);
    }
  }

  /** A batch in which no texture resolves leaves the store as it was. */
  lemma {:induction false} BatchNoneResolved(s: Store, jobId: int, frameId: int, ps: seq<ParticleInput>)
    requires forall i :: 0 <= i < |ps| ==> LookupTexture(s.textures, ps[i].texture).None?
    ensures InsertParticleData(s, jobId, frameId, ps) == s
  {
    NoneResolvedIsEmpty(s.textures, jobId, frameId, ps);
  }

  lemma {:induction false} NoneResolvedIsEmpty(textures: seq<TextureRow>, jobId: int, frameId: int,
                                               ps: seq<ParticleInput>)
    requires forall i :: 0 <= i < |ps| ==> LookupTexture(textures, ps[i].texture).None?
    ensures ResolveBatch(textures, jobId, frameId, ps) == []
  {
    if ps != [] {
      assert forall i :: 1 <= i < |ps| ==> ps[i] == ps[1..][i - 1];
      NoneResolvedIsEmpty(textures, jobId, frameId, ps[1..]);
    }
  }

  /** One row of the `get_particles` answer. */
  datatype ParticleView = ParticleView(particleId: int, positionX: Float, positionY: Float,
                                       positionZ: Float, size: Float, textureName: string)

  function ViewOf(p: ParticleRow, textureName: string): ParticleView
  {
    ParticleView(p.particleId, p.position.x, p.position.y, p.position.z, p.size, textureName)
  }

  /** The particle rows of one job, frame and texture id, in storage order. */
  function MatchingParticles(ps: seq<ParticleRow>, jobId: int, frameId: int, textureId: int): (r: seq<ParticleRow>)
    ensures |r| <= |ps|
    ensures forall p :: p in r <==> p in ps && p.jobId == jobId && p.frameId == frameId && p.textureId == textureId
  {
    if ps == [] then []
    else
      (if ps[0].jobId == jobId && ps[0].frameId == frameId && ps[0].textureId == textureId then [ps[0]] else [])
      + MatchingParticles(ps[1..], jobId, frameId, textureId)
  }

  /** The names of the texture rows with a given id. */
  function TextureNames(textures: seq<TextureRow>, textureId: int): (r: seq<string>)
    ensures forall n :: n in r <==> TextureRow(textureId, n) in textures
  {
    if textures == [] then []
    else
      (if textures[0].textureId == textureId then [textures[0].textureName] else [])
      + TextureNames(textures[1..], textureId)
  }

  /** The join: each particle row paired with each name of its texture. */
  function Join(ps: seq<ParticleRow>, names: seq<string>): seq<ParticleView>
  {
    if ps == [] then []
    else seq(|names|, k requires 0 <= k < |names| => ViewOf(ps[0], names[k])) + Join(ps[1..], names)
  }

  /** Each particle row shown with one texture name. */
  function Views(ps: seq<ParticleRow>, textureName: string): (r: seq<ParticleView>)
    ensures |r| == |ps|
    ensures forall k :: 0 <= k < |ps| ==> r[k] == ViewOf(ps[k], textureName)
  {
    if ps == [] then [] else [ViewOf(ps[0], textureName)] + Views(ps[1..], textureName)
  }

  /** `get_particles(j, f, t)`: the particles of job j, frame f and texture
      id t joined with the textures table on the texture id. */
  function GetParticles(s: Store, jobId: int, frameId: int, textureId: int): (r: seq<ParticleView>)
    ensures forall v :: v in r ==>
      && TextureRow(textureId, v.textureName) in s.textures
      && (exists p :: p in s.particles && p.jobId == jobId && p.frameId == frameId
            && p.textureId == textureId && v == ViewOf(p, v.textureName))
    ensures TextureNames(s.textures, textureId) == [] ==> r == []
  {
    var r := Join(MatchingParticles(s.particles, jobId, frameId, textureId), TextureNames(s.textures, textureId));
    JoinShape(MatchingParticles(s.particles, jobId, frameId, textureId), TextureNames(s.textures, textureId));
    r
  }

  lemma {:induction false} JoinShape(ps: seq<ParticleRow>, names: seq<string>)
    ensures forall v :: v in Join(ps, names) ==>
      v.textureName in names && exists p :: p in ps && v == ViewOf(p, v.textureName)
    ensures names == [] ==> Join(ps, names) == []
  {
    if ps != [] {
      JoinShape(ps[1..], names);
      forall v | v in Join(ps, names)
        ensures v.textureName in names && exists p :: p in ps && v == ViewOf(p, v.textureName)
      {
        var head := seq(|names|, k requires 0 <= k < |names| => ViewOf(ps[0], names[k]));
        if v in head {
          var k :| 0 <= k < |names| && head[k] == v;
          assert v == ViewOf(ps[0], v.textureName) && v.textureName == names[k];
        } else {
          assert v in Join(ps[1..], names);
          var p :| p in ps[1..] && v == ViewOf(p, v.textureName);
          assert p in ps;
        }
      }
    }
  }

  lemma {:induction false} JoinSingleName(ps: seq<ParticleRow>, name: string)
    ensures Join(ps, [name]) == Views(ps, name)
  {
    if ps != [] {
      JoinSingleName(ps[1..], name);
    }
  }

  lemma {:induction false} NoTextureNames(textures: seq<TextureRow>, textureId: int)
    requires forall k :: 0 <= k < |textures| ==> textures[k].textureId != textureId
    ensures TextureNames(textures, textureId) == []
  {
    if textures != [] {
      NoTextureNames(textures[1..], textureId);
    }
  }

  lemma {:induction false} TextureNamesKeyed(textures: seq<TextureRow>, textureId: int, name: string)
    requires TexturesKeyed(textures) && TextureRow(textureId, name) in textures
    ensures TextureNames(textures, textureId) == [name]
  {
    assert forall i :: 1 <= i < |textures| ==> textures[i] == textures[1..][i - 1];
    if textures[0] == TextureRow(textureId, name) {
      assert forall k :: 0 <= k < |textures[1..]| ==> textures[1..][k].textureId != textureId;
      NoTextureNames(textures[1..], textureId);
    } else {
      assert textures[0].textureId != textureId;
      TextureNamesKeyed(textures[1..], textureId, name);
    }
  }

  /** With keyed textures, `get_particles` returns exactly the stored
      particles of that job, frame and texture, each paired with the
      texture's name. */
  lemma GetParticlesKeyed(s: Store, jobId: int, frameId: int, textureId: int, name: string)
    requires TexturesKeyed(s.textures) && TextureRow(textureId, name) in s.textures
    ensures GetParticles(s, jobId, frameId, textureId)
         == Views(MatchingParticles(s.particles, jobId, frameId, textureId), name)
  {
    TextureNamesKeyed(s.textures, textureId, name);
    JoinSingleName(MatchingParticles(s.particles, jobId, frameId, textureId), name);
  }

  /** With keyed textures a name resolves to an id exactly when it is that
      id's name. */
  lemma LookupKeyed(textures: seq<TextureRow>, textureId: int, name: string, query: string)
    requires TexturesKeyed(textures) && TextureRow(textureId, name) in textures
    ensures LookupTexture(textures, query) == Some(textureId) <==> query == name
  {
    var r := LookupTexture(textures, query);
    if query == name {
      var i :| 0 <= i < |textures| && textures[i] == TextureRow(textureId, name);
      var k :| 0 <= k < |textures| && textures[k] == TextureRow(r.value, name);
      assert i == k;
    }
    if r == Some(textureId) {
      var i :| 0 <= i < |textures| && textures[i] == TextureRow(textureId, name);
      var k :| 0 <= k < |textures| && textures[k] == TextureRow(textureId, query);
      assert i == k;
    }
  }

  lemma {:induction false} MatchingAppend(a: seq<ParticleRow>, b: seq<ParticleRow>, jobId: int, frameId: int, textureId: int)
    ensures MatchingParticles(a + b, jobId, frameId, textureId)
         == MatchingParticles(a, jobId, frameId, textureId) + MatchingParticles(b, jobId, frameId, textureId)
  {
    if a != [] {
      assert (a + b)[1..] == a[1..] + b;
      MatchingAppend(a[1..], b, jobId, frameId, textureId);
    } else {
      assert a + b == b;
    }
  }

  /** The input particles carrying a given texture name, in input order. */
  function WithTexture(ps: seq<ParticleInput>, name: string): (r: seq<ParticleInput>)
    ensures forall p :: p in r <==> p in ps && p.texture == name
  {
    if ps == [] then []
    else (if ps[0].texture == name then [ps[0]] else []) + WithTexture(ps[1..], name)
  }

  /** The view of an input particle once stored under a texture. */
  function InputViews(ps: seq<ParticleInput>, name: string): (r: seq<ParticleView>)
    ensures |r| == |ps|
  {
    if ps == [] then []
    else
      [ParticleView(ps[0].particleId, ps[0].position.x, ps[0].position.y, ps[0].position.z, ps[0].size, name)]
      + InputViews(ps[1..], name)
  }

  lemma {:induction false} ResolvedOfTexture(textures: seq<TextureRow>, jobId: int, frameId: int,
                                             textureId: int, name: string, ps: seq<ParticleInput>)
    requires TexturesKeyed(textures) && TextureRow(textureId, name) in textures
    ensures Views(MatchingParticles(ResolveBatch(textures, jobId, frameId, ps), jobId, frameId, textureId), name)
         == InputViews(WithTexture(ps, name), name)
  {
    if ps != [] {
      ResolvedOfTexture(textures, jobId, frameId, textureId, name, ps[1..]);
      LookupKeyed(textures, textureId, name, ps[0].texture);
      var rest := ResolveBatch(textures, jobId, frameId, ps[1..]);
      var lk := LookupTexture(textures, ps[0].texture);
      var tail := WithTexture(ps[1..], name);
      if lk.None? {
        assert ResolveBatch(textures, jobId, frameId, ps) == rest;
        assert WithTexture(ps, name) == tail;
      } else {
        var row := ParticleRowOf(ps[0], jobId, frameId, lk.value);
        var batch := [row] + rest;
        assert ResolveBatch(textures, jobId, frameId, ps) == batch;
        assert batch[1..] == rest;
        var m := MatchingParticles(rest, jobId, frameId, textureId);
        if ps[0].texture == name {
          assert MatchingParticles(batch, jobId, frameId, textureId) == [row] + m;
          assert Views([row] + m, name)[1..] == Views(m, name);
          assert WithTexture(ps, name) == [ps[0]] + tail;
          assert ([ps[0]] + tail)[1..] == tail;
        } else {
          assert MatchingParticles(batch, jobId, frameId, textureId) == m;
          assert WithTexture(ps, name) == tail;
        }
      }
    }
  }

  /** Storing a batch for a frame that had no particles of texture t, then
      reading texture t back, gives the batch's particles named after t, in
      input order; the others were stored under another texture or skipped. */
  lemma InsertThenGetParticles(s: Store, jobId: int, frameId: int, ps: seq<ParticleInput>,
                               textureId: int, name: string)
    requires TexturesKeyed(s.textures) && TextureRow(textureId, name) in s.textures
    requires MatchingParticles(s.particles, jobId, frameId, textureId) == []
    ensures GetParticles(InsertParticleData(s, jobId, frameId, ps), jobId, frameId, textureId)
         == InputViews(WithTexture(ps, name), name)
  {
    var r := InsertParticleData(s, jobId, frameId, ps);
    var added := ResolveBatch(s.textures, jobId, frameId, ps);
    GetParticlesKeyed(r, jobId, frameId, textureId, name);
    MatchingAppend(s.particles, added, jobId, frameId, textureId);
    assert MatchingParticles(r.particles, jobId, frameId, textureId)
        == MatchingParticles(added, jobId, frameId, textureId);
    ResolvedOfTexture(s.textures, jobId, frameId, textureId, name, ps);
  }

  /** `get_textures`: the textures table as stored, every row as many times
      as it is stored. */
  function GetTextures(s: Store): (r: seq<TextureRow>)
    ensures multiset(r) == multiset(s.textures)
    ensures |r| == |s.textures|
    ensures forall t :: t in r <==> t in s.textures
  {
    s.textures
  }

  /** Every name `get_textures` lists resolves in the lookup of
      `insert_particle_data`; with unique ids and names it resolves to the
      listed row's id, and no other name does. */
  lemma GetTexturesResolve(s: Store, k: int)
    requires 0 <= k < |GetTextures(s)|
    ensures LookupTexture(s.textures, GetTextures(s)[k].textureName).Some?
    ensures TexturesKeyed(s.textures) ==>
      forall name :: LookupTexture(s.textures, name) == Some(GetTextures(s)[k].textureId)
                 <==> name == GetTextures(s)[k].textureName
  {
    var t := GetTextures(s)[k];
    assert s.textures[k] == t;
    if TexturesKeyed(s.textures) {
      forall name {
        LookupKeyed(s.textures, t.textureId, t.textureName, name);
      }
    }
  }

  // ----------------------------------------------------------------- nodes

  /** `insert_node_info`: appends one node row under the next auto-increment
      id with the probed host facts given as parameters; never updates an
      existing row. */
  function InsertNodeInfo(s: Store, hostname: string, ipAddress: string, cpuCores: int,
                          memoryGb: Float, status: string, role: string): (r: Store)
    ensures r.(nodes := s.nodes, nextNodeId := s.nextNodeId) == s
    ensures |r.nodes| == |s.nodes| + 1 && r.nodes[..|s.nodes|] == s.nodes
    ensures r.nodes[|s.nodes|] == NodeRow(s.nextNodeId, hostname, ipAddress, cpuCores, memoryGb, status, role)
    ensures r.nextNodeId > s.nextNodeId
  {
    var row := NodeRow(s.nextNodeId, hostname, ipAddress, cpuCores, memoryGb, status, role);
    s.(nodes := s.nodes + [row], nextNodeId := s.nextNodeId + 1)
  }

  /** How many node rows carry a host name. */
  function NodesNamed(nodes: seq<NodeRow>, hostname: string): nat
  {
    if nodes == [] then 0
    else (if nodes[0].nodeName == hostname then 1 else 0) + NodesNamed(nodes[1..], hostname)
  }

  lemma {:induction false} NodesNamedAppend(a: seq<NodeRow>, b: seq<NodeRow>, hostname: string)
    ensures NodesNamed(a + b, hostname) == NodesNamed(a, hostname) + NodesNamed(b, hostname)
  {
    if a != [] {
      assert (a + b)[1..] == a[1..] + b;
      NodesNamedAppend(a[1..], b, hostname);
    } else {
      assert a + b == b;
    }
  }

  /** Registering is not an upsert: a host registered again gets one more row. */
  lemma RegisterAddsRow(s: Store, hostname: string, ipAddress: string, cpuCores: int,
                        memoryGb: Float, status: string, role: string)
    ensures NodesNamed(InsertNodeInfo(s, hostname, ipAddress, cpuCores, memoryGb, status, role).nodes, hostname)
         == NodesNamed(s.nodes, hostname) + 1
  {
    var row := NodeRow(s.nextNodeId, hostname, ipAddress, cpuCores, memoryGb, status, role);
    NodesNamedAppend(s.nodes, [row], hostname);
  }

  predicate IsActiveRender(n: NodeRow)
  {
    n.role == RenderRole && n.status == Active
  }

  function ActiveRender(nodes: seq<NodeRow>): (r: seq<NodeRow>)
    ensures |r| <= |nodes|
    ensures forall n :: n in r <==> n in nodes && IsActiveRender(n)
  {
    if nodes == [] then []
    else (if IsActiveRender(nodes[0]) then [nodes[0]] else []) + ActiveRender(nodes[1..])
  }

  /** `get_active_render_nodes`: exactly the rows with role `'render'` and
      status `'active'`, in storage order. */
  function GetActiveRenderNodes(s: Store): (r: seq<NodeRow>)
    ensures forall n :: n in r <==> n in s.nodes && n.role == RenderRole && n.status == Active
  {
    ActiveRender(s.nodes)
  }

  lemma {:induction false} ActiveRenderAppend(a: seq<NodeRow>, b: seq<NodeRow>)
    ensures ActiveRender(a + b) == ActiveRender(a) + ActiveRender(b)
  {
    if a != [] {
      assert (a + b)[1..] == a[1..] + b;
      ActiveRenderAppend(a[1..], b);
    } else {
      assert a + b == b;
    }
  }

  /** A node registered as an active render node is listed after the ones
      already listed; any other registration leaves the list as it was. */
  lemma RegisterThenActive(s: Store, hostname: string, ipAddress: string, cpuCores: int,
                           memoryGb: Float, status: string, role: string)
    ensures var r := InsertNodeInfo(s, hostname, ipAddress, cpuCores, memoryGb, status, role);
      GetActiveRenderNodes(r) == GetActiveRenderNodes(s)
        + (if status == Active && role == RenderRole then [r.nodes[|s.nodes|]] else [])
  {
    var row := NodeRow(s.nextNodeId, hostname, ipAddress, cpuCores, memoryGb, status, role);
    ActiveRenderAppend(s.nodes, [row]);
  }

  // ---------------------------------------------------------- work threads

  function ThreadRows(jobId: int, frameIds: seq<int>, nodeId: int): (r: seq<WorkThreadRow>)
    ensures |r| == |frameIds|
    ensures forall k :: 0 <= k < |frameIds| ==> r[k] == WorkThreadRow(nodeId, jobId, frameIds[k])
  {
    if frameIds == [] then [] else [WorkThreadRow(nodeId, jobId, frameIds[0])] + ThreadRows(jobId, frameIds[1..], nodeId)
  }

  /** `create_work_threads`: one `(node, job, frame)` row per frame id, in
      order, after the existing rows. */
  function CreateWorkThreads(s: Store, jobId: int, frameIds: seq<int>, nodeId: int): (r: Store)
    ensures r.(workThreads := s.workThreads) == s
    ensures |r.workThreads| == |s.workThreads| + |frameIds|
    ensures r.workThreads[..|s.workThreads|] == s.workThreads
    ensures forall k :: 0 <= k < |frameIds| ==>
      r.workThreads[|s.workThreads| + k] == WorkThreadRow(nodeId, jobId, frameIds[k])
  {
    s.(workThreads := s.workThreads + ThreadRows(jobId, frameIds, nodeId))
  }

  /** How many work-thread rows a node holds. */
  function ThreadsOfNode(rows: seq<WorkThreadRow>, nodeId: int): nat
  {
    if rows == [] then 0
    else (if rows[0].nodeId == nodeId then 1 else 0) + ThreadsOfNode(rows[1..], nodeId)
  }

  lemma {:induction false} ThreadsOfNodeAppend(a: seq<WorkThreadRow>, b: seq<WorkThreadRow>, nodeId: int)
    ensures ThreadsOfNode(a + b, nodeId) == ThreadsOfNode(a, nodeId) + ThreadsOfNode(b, nodeId)
  {
    if a != [] {
      assert (a + b)[1..] == a[1..] + b;
      ThreadsOfNodeAppend(a[1..], b, nodeId);
    } else {
      assert a + b == b;
    }
  }

  lemma {:induction false} ThreadRowsOfNode(jobId: int, frameIds: seq<int>, nodeId: int)
    ensures ThreadsOfNode(ThreadRows(jobId, frameIds, nodeId), nodeId) == |frameIds|
  {
    if frameIds != [] {
      ThreadRowsOfNode(jobId, frameIds[1..], nodeId);
    }
  }

  /** The node gains one work thread per frame id, duplicates included. */
  lemma WorkThreadsAssigned(s: Store, jobId: int, frameIds: seq<int>, nodeId: int)
    ensures ThreadsOfNode(CreateWorkThreads(s, jobId, frameIds, nodeId).workThreads, nodeId)
         == ThreadsOfNode(s.workThreads, nodeId) + |frameIds|
  {
    ThreadsOfNodeAppend(s.workThreads, ThreadRows(jobId, frameIds, nodeId), nodeId);
    ThreadRowsOfNode(jobId, frameIds, nodeId);
  }

  // ------------------------------------------------------------- scheduler

  /** `SELECT job_id FROM job_queue WHERE status = 'queued' LIMIT 1`. */
  function FirstQueued(q: seq<QueueRow>): (r: Option<int>)
    ensures r.None? <==> forall i :: 0 <= i < |q| ==> q[i].status != Queued
    ensures r.Some? ==> QueueRow(r.value, Queued) in q
    ensures r.Some? ==> exists i :: 0 <= i < |q| && q[i] == QueueRow(r.value, Queued)
                                   && forall k :: 0 <= k < i ==> q[k].status != Queued
  {
    if q == [] then None
    else if q[0].status == Queued then Some(q[0].jobId)
    else
      assert forall i :: 1 <= i < |q| ==> q[i] == q[1..][i - 1];
      var r := FirstQueued(q[1..]);
      assert r.Some? ==> exists i :: 1 <= i < |q| && q[i] == QueueRow(r.value, Queued)
                                    && forall k :: 0 <= k < i ==> q[k].status != Queued by {
        if r.Some? {
          var i :| 0 <= i < |q[1..]| && q[1..][i] == QueueRow(r.value, Queued)
            && forall k :: 0 <= k < i ==> q[1..][k].status != Queued;
          assert q[i + 1] == QueueRow(r.value, Queued);
        }
      }
      r
  }

  /** `UPDATE job_queue SET status = 'processing' WHERE job_id = j`. */
  function MarkProcessing(q: seq<QueueRow>, jobId: int): (r: seq<QueueRow>)
    ensures |r| == |q|
    ensures forall i :: 0 <= i < |q| ==>
      r[i] == (if q[i].jobId == jobId then q[i].(status := Processing) else q[i])
  {
    if q == [] then [] else [if q[0].jobId == jobId then q[0].(status := Processing) else q[0]] + MarkProcessing(q[1..], jobId)
  }

  /** One pass of `job_scheduler` (without its sleep): the first queued job,
      if any, is moved to `'processing'` and returned. */
  function SchedulerStep(s: Store): (r: (Store, Option<int>))
    ensures r.0.(jobQueue := s.jobQueue) == s
    ensures r.1.None? <==> forall i :: 0 <= i < |s.jobQueue| ==> s.jobQueue[i].status != Queued
    ensures r.1.None? ==> r.0 == s
    ensures r.1.Some? ==> QueueRow(r.1.value, Queued) in s.jobQueue
    ensures r.1.Some? ==> exists i :: 0 <= i < |s.jobQueue| && s.jobQueue[i] == QueueRow(r.1.value, Queued)
                                     && forall k :: 0 <= k < i ==> s.jobQueue[k].status != Queued
    ensures |r.0.jobQueue| == |s.jobQueue|
    ensures r.1.Some? ==> forall i :: 0 <= i < |s.jobQueue| ==>
      r.0.jobQueue[i] == (if s.jobQueue[i].jobId == r.1.value then s.jobQueue[i].(status := Processing)
                          else s.jobQueue[i])
  {
    match FirstQueued(s.jobQueue)
    case None => (s, None)
    case Some(j) => (s.(jobQueue := MarkProcessing(s.jobQueue, j)), Some(j))
  }

  function QueuedCount(q: seq<QueueRow>): nat
  {
    if q == [] then 0 else (if q[0].status == Queued then 1 else 0) + QueuedCount(q[1..])
  }

  lemma {:induction false} MarkProcessingShrinks(q: seq<QueueRow>, jobId: int)
    ensures QueuedCount(MarkProcessing(q, jobId)) <= QueuedCount(q)
    ensures QueueRow(jobId, Queued) in q ==> QueuedCount(MarkProcessing(q, jobId)) < QueuedCount(q)
  {
    if q != [] {
      MarkProcessingShrinks(q[1..], jobId);
      assert MarkProcessing(q, jobId)[1..] == MarkProcessing(q[1..], jobId);
      if QueueRow(jobId, Queued) in q && q[0] != QueueRow(jobId, Queued) {
        assert QueueRow(jobId, Queued) in q[1..];
      }
    }
  }

  /** Every pass that finds a queued job takes at least one row off the
      queue, so repeated passes drain it. */
  lemma SchedulerProgress(s: Store)
    ensures var r := SchedulerStep(s);
      r.1.Some? ==> QueuedCount(r.0.jobQueue) < QueuedCount(s.jobQueue)
  {
    match FirstQueued(s.jobQueue)
    case None =>
    case Some(j) => MarkProcessingShrinks(s.jobQueue, j);
  }
}

=== FILE: makemp4.dfy ===
/** `create_ffmpeg_command` of `makeMP4.py`: the argument list that stitches a
    job's numbered frame images into an H.264 video. */
module MakeMp4 {
  import opened Base
  import opened Text

  /** The numbered input images, `/nfs/{job}/frame_%04d.png`. */
  function InputPattern(jobName: string): string
  {
    "/nfs/" + jobName + "/frame_%04d.png"
  }

  /** The video written, `/nfs/{job}/{job}.mp4`. */
  function OutputFile(jobName: string): string
  {
    "/nfs/" + jobName + "/" + jobName + ".mp4"
  }

  /** The argument following the first occurrence of `flag`, if any. */
  function ValueAfter(args: seq<string>, flag: string): Option<string>
  {
    if |args| < 2 then None
    else if args[0] == flag then Some(args[1])
    else ValueAfter(args[1..], flag)
  }

  lemma {:induction false} ValueAfterAt(args: seq<string>, flag: string, k: nat)
    requires k + 1 < |args| && args[k] == flag
    requires forall j :: 0 <= j < k ==> args[j] != flag
    ensures ValueAfter(args, flag) == Some(args[k + 1])
  {
    if k > 0 {
      ValueAfterAt(args[1..], flag, k - 1);
    }
  }

  /** `create_ffmpeg_command(job_name, fps, total_frames)`. */
  function FfmpegCommand(jobName: string, fps: int, totalFrames: int): (r: seq<string>)
    ensures |r| == 12 && r[0] == "ffmpeg" && r[11] == OutputFile(jobName)
  {
    ["ffmpeg",
     "-framerate", IntToString(fps),
     "-i", InputPattern(jobName),
     "-frames:v", IntToString(totalFrames),
     "-c:v", "libx264",
     "-pix_fmt", "yuv420p",
     OutputFile(jobName)]
  }

  /** The text of a number is never an option flag, whose second character is a letter. */
  lemma NumberIsNotFlag(i: int, flag: string)
    requires |flag| >= 2 && flag[0] == '-' && !IsDigit(flag[1])
    ensures IntToString(i) != flag
  {
    var t := IntToString(i);
    if |t| >= 2 && t[0] == '-' {
      assert t[1..][0] == t[1];
    }
  }

  /** Each option of the command is followed by the value built for it. */
  lemma FfmpegCommandFlags(jobName: string, fps: int, totalFrames: int)
    ensures var r := FfmpegCommand(jobName, fps, totalFrames);
      && ValueAfter(r, "-framerate") == Some(IntToString(fps))
      && ValueAfter(r, "-i") == Some(InputPattern(jobName))
      && ValueAfter(r, "-frames:v") == Some(IntToString(totalFrames))
      && ValueAfter(r, "-c:v") == Some("libx264")
      && ValueAfter(r, "-pix_fmt") == Some("yuv420p")
  {
    var r := FfmpegCommand(jobName, fps, totalFrames);
    NumberIsNotFlag(fps, "-i");
    NumberIsNotFlag(fps, "-frames:v");
    NumberIsNotFlag(fps, "-c:v");
    NumberIsNotFlag(fps, "-pix_fmt");
    NumberIsNotFlag(totalFrames, "-c:v");
    NumberIsNotFlag(totalFrames, "-pix_fmt");
    assert InputPattern(jobName)[0] == '/';
    ValueAfterAt(r, "-framerate", 1);
    ValueAfterAt(r, "-i", 3);
    ValueAfterAt(r, "-frames:v", 5);
    ValueAfterAt(r, "-c:v", 7);
    ValueAfterAt(r, "-pix_fmt", 9);
  }

  /** What an ffmpeg argument list of this shape asks for: job name, frame
      rate and frame count. */
  datatype VideoJob = VideoJob(jobName: string, fps: int, totalFrames: int)

  /** Reads back an argument list of the shape `FfmpegCommand` builds; the
      reference its output is checked against. */
  function ParseFfmpegCommand(args: seq<string>): Option<VideoJob>
  {
    if |args| != 12 || args[0] != "ffmpeg" || args[1] != "-framerate" || args[3] != "-i"
       || args[5] != "-frames:v" || args[7..11] != ["-c:v", "libx264", "-pix_fmt", "yuv420p"] then None
    else
      var fps := ParseInt(args[2]);
      var frames := ParseInt(args[6]);
      var name := match StripPrefix("/nfs/", args[4])
        case None => None
        case Some(t) => StripSuffix("/frame_%04d.png", t);
      if fps.None? || frames.None? || name.None? || args[11] != OutputFile(name.value) then None
      else Some(VideoJob(name.value, fps.value, frames.value))
  }

  /** The argument list determines the job it was built for. */
  lemma FfmpegCommandRoundTrip(jobName: string, fps: int, totalFrames: int)
    ensures ParseFfmpegCommand(FfmpegCommand(jobName, fps, totalFrames)) == Some(VideoJob(jobName, fps, totalFrames))
  {
    IntToStringRoundTrip(fps);
    IntToStringRoundTrip(totalFrames);
    assert InputPattern(jobName) == "/nfs/" + (jobName + "/frame_%04d.png");
    StripPrefixOfConcat("/nfs/", jobName + "/frame_%04d.png");
    StripSuffixOfConcat(jobName, "/frame_%04d.png");
  }
}

=== FILE: render.dfy ===
/** The pure builders of `Render.py`: the POV-Ray argument list, the sphere
    text for a particle list, the marker substitution that turns the scene
    template into a frame's scene, and the per-frame file names. */
module Render {
  import opened Base
  import opened Text
  import opened Tables
  import opened Cluster

  /** The line of the scene template the particle text replaces. */
  const Marker := "//PARTICLE_SYSTEM"

  /** The name of the scene template, `NewBegining.pov`, without its extension. */
  const TemplateBase := "NewBegining"

  // ------------------------------------------------------- render command

  /** `CallRenderEngine`'s `pov_command`: the engine path, `/Exit`, the
      input, output, width, height and quality flags, then `+A` and the
      depth flag when antialiasing is `"on"`. */
  function RenderCommand(enginePath: string, job: JobRow, inputFile: string, outputFile: string): (r: seq<string>)
    ensures |r| == (if job.antialias == "on" then 9 else 7)
    ensures r[0] == enginePath && r[1] == "/Exit"
    ensures r[2] == "+I" + inputFile && r[3] == "+O" + outputFile
    ensures r[4] == "+W" + IntToString(job.width) && r[5] == "+H" + IntToString(job.height)
    ensures r[6] == "+Q" + IntToString(job.quality)
    ensures job.antialias == "on" ==> r[7] == "+A" && r[8] == "+R" + IntToString(job.antialiasDepth)
  {
    var base := [enginePath, "/Exit", "+I" + inputFile, "+O" + outputFile,
                 "+W" + IntToString(job.width), "+H" + IntToString(job.height),
                 "+Q" + IntToString(job.quality)];
    if job.antialias == "on" then base + ["+A", "+R" + IntToString(job.antialiasDepth)] else base
  }

  /** What a POV-Ray argument list asks for. */
  datatype RenderSettings = RenderSettings(inputFile: string, outputFile: string, width: int,
                                           height: int, quality: int, antialiasDepth: Option<int>)

  /** The integer after a flag prefix, as in `+W640`. */
  function IntFlag(prefix: string, arg: string): Option<int>
  {
    match StripPrefix(prefix, arg)
    case None => None
    case Some(t) => ParseInt(t)
  }

  /** Reads an argument list of the shape `RenderCommand` builds; the
      reference its output is checked against. */
  function ParseRenderCommand(args: seq<string>): Option<RenderSettings>
  {
    if (|args| != 7 && |args| != 9) || args[1] != "/Exit" then None
    else
      var input := StripPrefix("+I", args[2]);
      var output := StripPrefix("+O", args[3]);
      var w := IntFlag("+W", args[4]);
      var h := IntFlag("+H", args[5]);
      var q := IntFlag("+Q", args[6]);
      var depth := if |args| == 9 && args[7] == "+A" then IntFlag("+R", args[8]) else None;
      if input.None? || output.None? || w.None? || h.None? || q.None? || (|args| == 9 && depth.None?) then None
      else Some(RenderSettings(input.value, output.value, w.value, h.value, q.value, depth))
  }

  lemma IntFlagOf(prefix: string, i: int)
    ensures IntFlag(prefix, prefix + IntToString(i)) == Some(i)
  {
    StripPrefixOfConcat(prefix, IntToString(i));
    IntToStringRoundTrip(i);
  }

  /** The argument list carries exactly the job's resolution, quality and
      antialiasing choice and the two file names: reading it back recovers
      them, and the depth is present exactly when antialiasing is `"on"`. */
  lemma RenderCommandRoundTrip(enginePath: string, job: JobRow, inputFile: string, outputFile: string)
    ensures ParseRenderCommand(RenderCommand(enginePath, job, inputFile, outputFile))
         == Some(RenderSettings(inputFile, outputFile, job.width, job.height, job.quality,
                                if job.antialias == "on" then Some(job.antialiasDepth) else None))
  {
    StripPrefixOfConcat("+I", inputFile);
    StripPrefixOfConcat("+O", outputFile);
    IntFlagOf("+W", job.width);
    IntFlagOf("+H", job.height);
    IntFlagOf("+Q", job.quality);
    IntFlagOf("+R", job.antialiasDepth);
  }

  // --------------------------------------------------------- sphere text

  /** One particle as a POV-Ray sphere, `sphere { <x, y, z> , size, 1 }`
      and a newline; `show` is Python's text form of a float. When no float
      text holds a `,`, a `>` or a line break, the line reads back as the
      particle's four numbers. */
  function SphereLine(p: ParticleView, show: Float -> string): (r: string)
    ensures |r| > 0 && r[|r| - 1] == '\n'
    ensures (forall x :: '\n' !in show(x)) ==> CountChar(r, '\n') == 1
    ensures PlainNumbers(show) ==> ParseSphereBody(r[..|r| - 1]) == Some(SphereTextOf(p, show))
  {
    var body := SphereBody(p, show);
    CountCharAppend(body, "\n", '\n');
    SphereBodyOneLine(p, show);
    SphereLineReads(p, show);
    assert (body + "\n")[..|body|] == body;
    body + "\n"
  }

  lemma SphereBodyOneLine(p: ParticleView, show: Float -> string)
    ensures (forall x :: '\n' !in show(x)) ==> CountChar(SphereBody(p, show), '\n') == 0
  {
    if forall x :: '\n' !in show(x) {
      CountCharAbsent(SphereBody(p, show), '\n');
    }
  }

  lemma SphereLineReads(p: ParticleView, show: Float -> string)
    ensures PlainNumbers(show) ==> ParseSphereBody(SphereBody(p, show)) == Some(SphereTextOf(p, show))
  {
    if PlainNumbers(show) {
      SphereBodyRoundTrip(p, show);
    }
  }

  /** The four number texts of a sphere line, in the order they appear. */
  datatype SphereText = SphereText(x: string, y: string, z: string, size: string)

  function SphereTextOf(p: ParticleView, show: Float -> string): SphereText
  {
    SphereText(show(p.positionX), show(p.positionY), show(p.positionZ), show(p.size))
  }

  /** Float text that cannot be mistaken for the punctuation of a sphere
      line, as Python's `str` of a float never is. */
  ghost predicate PlainNumbers(show: Float -> string)
  {
    forall v :: ',' !in show(v) && '>' !in show(v) && '\n' !in show(v)
  }

  const SphereOpen := "sphere { <"
  const SphereClose := ", 1 }"

  /** `v`, a separator character, a gap, then the rest of the line. */
  function Field(v: string, sep: char, gap: string, rest: string): string
  {
    v + [sep] + gap + rest
  }

  /** `x, y, z> , size`: the text between the fixed ends of a sphere line. */
  function SphereFields(t: SphereText): string
  {
    Field(t.x, ',', " ", Field(t.y, ',', " ", Field(t.z, '>', " , ", t.size)))
  }

  function SphereBody(p: ParticleView, show: Float -> string): string
  {
    SphereOpen + SphereFields(SphereTextOf(p, show)) + SphereClose
  }

  /** The sphere line is the f-string of `format_particle_objects`, written out. */
  lemma SphereBodyText(p: ParticleView, show: Float -> string)
    ensures SphereBody(p, show)
         == "sphere { <" + show(p.positionX) + ", " + show(p.positionY) + ", " + show(p.positionZ)
            + "> , " + show(p.size) + ", 1 }"
  {
  }

  /** Reads one field: the text up to `sep`, then checks the gap after it. */
  function ReadField(s: string, sep: char, gap: string): (r: Option<(string, string)>)
    ensures r.Some? ==> s == Field(r.value.0, sep, gap, r.value.1) && sep !in r.value.0
  {
    match SplitFirst(s, sep)
    case None => None
    case Some(parts) =>
      match StripPrefix(gap, parts.1)
      case None => None
      case Some(rest) => Some((parts.0, rest))
  }

  lemma ReadFieldOf(v: string, sep: char, gap: string, rest: string)
    requires sep !in v
    ensures ReadField(Field(v, sep, gap, rest), sep, gap) == Some((v, rest))
  {
    assert Field(v, sep, gap, rest) == v + [sep] + (gap + rest);
    SplitFirstOf(v, sep, gap + rest);
    StripPrefixOfConcat(gap, rest);
  }

  /** A reader for one sphere line without its line break. */
  function ParseSphereBody(line: string): (r: Option<SphereText>)
    ensures r.Some? ==> line == SphereOpen + SphereFields(r.value) + SphereClose
  {
    match StripPrefix(SphereOpen, line)
    case None => None
    case Some(t) =>
      match StripSuffix(SphereClose, t)
      case None => None
      case Some(mid) =>
        match ReadField(mid, ',', " ")
        case None => None
        case Some(a) =>
          match ReadField(a.1, ',', " ")
          case None => None
          case Some(b) =>
            match ReadField(b.1, '>', " , ")
            case None => None
            case Some(c) => Some(SphereText(a.0, b.0, c.0, c.1))
  }

  /** The sphere line of a particle reads back as its four number texts. */
  lemma SphereBodyRoundTrip(p: ParticleView, show: Float -> string)
    requires PlainNumbers(show)
    ensures ParseSphereBody(SphereBody(p, show)) == Some(SphereTextOf(p, show))
  {
    var t := SphereTextOf(p, show);
    var f := SphereFields(t);
    assert SphereOpen + f + SphereClose == SphereOpen + (f + SphereClose);
    StripPrefixOfConcat(SphereOpen, f + SphereClose);
    StripSuffixOfConcat(f, SphereClose);
    var rz := Field(t.z, '>', " , ", t.size);
    var ry := Field(t.y, ',', " ", rz);
    ReadFieldOf(t.x, ',', " ", ry);
    ReadFieldOf(t.y, ',', " ", rz);
    ReadFieldOf(t.z, '>', " , ", t.size);
  }

  /** `format_particle_objects`: the sphere lines of the particles joined in
      input order. */
  function FormatParticleObjects(ps: seq<ParticleView>, show: Float -> string): (r: string)
    ensures r == "" <==> ps == []
  {
    if ps == [] then "" else SphereLine(ps[0], show) + FormatParticleObjects(ps[1..], show)
  }

  /** A one-particle list is that particle's sphere line. */
  lemma FormatSingle(p: ParticleView, show: Float -> string)
    ensures FormatParticleObjects([p], show) == SphereLine(p, show)
  {
    assert [p][1..] == [];
  }

  /** The number texts of each particle, in input order. */
  function SphereTexts(ps: seq<ParticleView>, show: Float -> string): (r: seq<SphereText>)
    ensures |r| == |ps|
    ensures forall k :: 0 <= k < |ps| ==> r[k] == SphereTextOf(ps[k], show)
  {
    if ps == [] then [] else [SphereTextOf(ps[0], show)] + SphereTexts(ps[1..], show)
  }

  /** A reader for the whole particle text: one sphere line per line. */
  function ParseParticleObjects(t: string): Option<seq<SphereText>>
    decreases |t|
  {
    if t == [] then Some([])
    else
      match SplitFirst(t, '\n')
      case None => None
      case Some(parts) =>
        match ParseSphereBody(parts.0)
        case None => None
        case Some(one) =>
          match ParseParticleObjects(parts.1)
          case None => None
          case Some(more) => Some([one] + more)
  }

  /** The particle text reads back line by line as the particles' numbers:
      the k-th line is the k-th particle's sphere. */
  lemma {:induction false} ParticleObjectsRoundTrip(ps: seq<ParticleView>, show: Float -> string)
    requires PlainNumbers(show)
    ensures ParseParticleObjects(FormatParticleObjects(ps, show)) == Some(SphereTexts(ps, show))
  {
    if ps != [] {
      var body := SphereBody(ps[0], show);
      var rest := FormatParticleObjects(ps[1..], show);
      assert '\n' !in body;
      assert FormatParticleObjects(ps, show) == body + ['\n'] + rest;
      SplitFirstOf(body, '\n', rest);
      SphereBodyRoundTrip(ps[0], show);
      ParticleObjectsRoundTrip(ps[1..], show);
    }
  }

  /** Formatting a list is formatting its parts one after the other. */
  lemma {:induction false} FormatAppend(a: seq<ParticleView>, b: seq<ParticleView>, show: Float -> string)
    ensures FormatParticleObjects(a + b, show) == FormatParticleObjects(a, show) + FormatParticleObjects(b, show)
  {
    if a != [] {
      assert (a + b)[1..] == a[1..] + b;
      FormatAppend(a[1..], b, show);
    } else {
      assert a + b == b;
    }
  }

  function CountChar(s: string, c: char): nat
  {
    if s == [] then 0 else (if s[0] == c then 1 else 0) + CountChar(s[1..], c)
  }

  lemma {:induction false} CountCharAppend(a: string, b: string, c: char)
    ensures CountChar(a + b, c) == CountChar(a, c) + CountChar(b, c)
  {
    if a != [] {
      assert (a + b)[1..] == a[1..] + b;
      CountCharAppend(a[1..], b, c);
    } else {
      assert a + b == b;
    }
  }

  lemma {:induction false} CountCharAbsent(s: string, c: char)
    requires c !in s
    ensures CountChar(s, c) == 0
  {
    if s != [] {
      CountCharAbsent(s[1..], c);
    }
  }

  /** One line per particle: when no float's text holds a newline, the
      particle text has exactly as many newlines as particles. */
  lemma {:induction false} OneLinePerParticle(ps: seq<ParticleView>, show: Float -> string)
    requires forall x :: '\n' !in show(x)
    ensures CountChar(FormatParticleObjects(ps, show), '\n') == |ps|
  {
    if ps != [] {
      OneLinePerParticle(ps[1..], show);
      CountCharAppend(SphereLine(ps[0], show), FormatParticleObjects(ps[1..], show), '\n');
    }
  }

  // ---------------------------------------------------------- scene text

  /** `buildOutputFile`'s `content.replace("//PARTICLE_SYSTEM", particle_objects)`. */
  function SceneText(template: string, particleText: string): (r: string)
    ensures !Contains(template, Marker) ==> r == template
  {
    TemplateKept(template, particleText);
    ReplaceAll(template, Marker, particleText)
  }

  lemma TemplateKept(template: string, particleText: string)
    ensures !Contains(template, Marker) ==> ReplaceAll(template, Marker, particleText) == template
  {
    if !Contains(template, Marker) {
      ReplaceWithoutMarker(template, Marker, particleText);
    }
  }

  /** A template with one marker line gets the particle text in its place
      and nothing else changes. */
  lemma SceneWithOneMarker(before: string, after: string, particleText: string)
    requires forall i: nat :: i < |before| ==> !OccursAt(before + Marker + after, Marker, i)
    requires !Contains(after, Marker)
    ensures SceneText(before + Marker + after, particleText) == before + particleText + after
  {
    ReplaceFirst(before, Marker, after, particleText);
    ReplaceWithoutMarker(after, Marker, particleText);
  }

  // ---------------------------------------------------------- file names

  /** `output/{job}/{template}_frame-`, the part of a frame's file names
      before the four-digit frame number. */
  function FramePrefix(jobName: string): string
  {
    "output/" + jobName + "/" + TemplateBase + "_frame-"
  }

  /** The image path given to the renderer, `output/{job}/{template}_frame-NNNN`. */
  function PngPath(jobName: string, frameId: int): (r: string)
    ensures StripPrefix(FramePrefix(jobName), r) == Some(FormatFourDigits(frameId))
  {
    StripPrefixOfConcat(FramePrefix(jobName), FormatFourDigits(frameId));
    FramePrefix(jobName) + FormatFourDigits(frameId)
  }

  /** The scene file of a frame, `output/{job}/{template}_frame-NNNN.pov`. */
  function PovPath(jobName: string, frameId: int): (r: string)
    ensures StripSuffix(".pov", r) == Some(PngPath(jobName, frameId))
  {
    StripSuffixOfConcat(PngPath(jobName, frameId), ".pov");
    PngPath(jobName, frameId) + ".pov"
  }

  /** The name carries the frame number as at least four characters that
      read back as the same number. */
  lemma FrameNumberInName(jobName: string, frameId: int)
    ensures StripPrefix(FramePrefix(jobName), PngPath(jobName, frameId)) == Some(FormatFourDigits(frameId))
    ensures StripSuffix(".pov", PovPath(jobName, frameId)) == Some(PngPath(jobName, frameId))
    ensures |FormatFourDigits(frameId)| >= 4
    ensures ParseInt(FormatFourDigits(frameId)) == Some(frameId)
  {
    FourDigitsRoundTrip(frameId);
  }

  /** Different frames of a job never share a scene file or an image file. */
  lemma FrameFilesDistinct(jobName: string, f1: int, f2: int)
    requires f1 != f2
    ensures PovPath(jobName, f1) != PovPath(jobName, f2)
    ensures PngPath(jobName, f1) != PngPath(jobName, f2)
  {
    FourDigitsInjective(f1, f2);
  }
}

=== FILE: tables.dfy ===
/** The rows of the coordination database and the database itself, as an
    immutable value. Column order follows the INSERT statements of
    `inc/cluster.py`. */
module Tables {
  import opened Base

  /** Status words the code writes or looks for. */
  const Pending := "pending"
  const InProgress := "in progress"
  const Rendered := "rendered"
  const Failed := "error"
  const Active := "active"
  const RenderRole := "render"
  const Queued := "queued"
  const Processing := "processing"

  /** `frames(job_id, frame_id, status)`. */
  datatype FrameRow = FrameRow(jobId: int, frameId: int, status: string)

  /** `render_jobs`: the id, the status the code filters on, and the columns
      `create_job` inserts. Any other column a `SELECT *` returns is not
      modelled. */
  datatype JobRow = JobRow(
    jobId: int,
    jobName: string,
    status: string,
    totalFrames: int,
    width: int,
    height: int,
    fps: int,
    quality: int,
    antialias: string,
    antialiasDepth: int,
    antialiasThreshold: Float,
    samplingMethod: int)

  /** `particles`. */
  datatype ParticleRow = ParticleRow(
    particleId: int,
    frameId: int,
    jobId: int,
    position: Vec3,
    velocity: Vec3,
    size: Float,
    textureId: int)

  /** `textures(texture_id, texture_name)`. */
  datatype TextureRow = TextureRow(textureId: int, textureName: string)

  /** `nodes`. */
  datatype NodeRow = NodeRow(
    nodeId: int,
    nodeName: string,
    ipAddress: string,
    cpuCores: int,
    memoryGb: Float,
    status: string,
    role: string)

  /** `work_threads(node_id, job_id, frame_id)`. */
  datatype WorkThreadRow = WorkThreadRow(nodeId: int, jobId: int, frameId: int)

  /** `job_queue(job_id, status)`, read by the scheduler loop. */
  datatype QueueRow = QueueRow(jobId: int, status: string)

  /** The whole database. Rows keep insertion order; the two counters are
      the auto-increment values the next `render_jobs` and `nodes` rows get. */
  datatype Store = Store(
    jobs: seq<JobRow>,
    frames: seq<FrameRow>,
    particles: seq<ParticleRow>,
    textures: seq<TextureRow>,
    nodes: seq<NodeRow>,
    workThreads: seq<WorkThreadRow>,
    jobQueue: seq<QueueRow>,
    nextJobId: int,
    nextNodeId: int)

  /** Auto-increment keys: every stored id is below the next one to hand out. */
  ghost predicate KeysBelowCounters(s: Store)
  {
    && (forall i :: 0 <= i < |s.jobs| ==> s.jobs[i].jobId < s.nextJobId)
    && (forall i :: 0 <= i < |s.nodes| ==> s.nodes[i].nodeId < s.nextNodeId)
  }

  /** `textures.texture_id` is a primary key and `texture_name` is unique. */
  ghost predicate TexturesKeyed(textures: seq<TextureRow>)
  {
    forall i, k :: 0 <= i < |textures| && 0 <= k < |textures| && i != k ==>
      textures[i].textureId != textures[k].textureId && textures[i].textureName != textures[k].textureName
  }
}

=== FILE: text.dfy ===
/** Number-to-text and text-replacement primitives the builders rely on:
    Python's `str(int)`, the `{:04d}` format and `str.replace`. */
module Text {
  import opened Base

  predicate IsDigit(c: char)
  {
    '0' <= c <= '9'
  }

  predicate AllDigits(s: string)
  {
    forall i :: 0 <= i < |s| ==> IsDigit(s[i])
  }

  function DigitValue(c: char): nat
    requires IsDigit(c)
  {
    c as int - '0' as int
  }

  function DigitChar(d: nat): (c: char)
    requires d < 10
    ensures IsDigit(c) && DigitValue(c) == d
  {
    ('0' as int + d) as char
  }

  /** The value of a string of decimal digits, most significant first. */
  function DigitsValue(s: string): nat
    requires AllDigits(s)
  {
    if s == [] then 0 else DigitsValue(s[..|s| - 1]) * 10 + DigitValue(s[|s| - 1])
  }

  /** Decimal text of a natural number, as Python's `str` writes it: at least
      one digit and no leading zero. */
  function NatToString(n: nat): (r: string)
    ensures |r| >= 1 && AllDigits(r)
    ensures |r| > 1 ==> r[0] != '0'
    ensures n < 10 <==> |r| == 1
  {
    if n < 10 then [DigitChar(n)] else NatToString(n / 10) + [DigitChar(n % 10)]
  }

  /** Python's `str(i)` (and an f-string field) for an integer. */
  function IntToString(i: int): (r: string)
    ensures |r| >= 1
    ensures i >= 0 <==> AllDigits(r)
    ensures i < 0 <==> r[0] == '-'
    ensures i < 0 ==> AllDigits(r[1..])
    ensures i >= 0 && |r| > 1 ==> r[0] != '0'
    ensures i < 0 ==> |r| > 1 && r[1] != '0'
  {
    if i < 0 then
      var r := "-" + NatToString(-i);
      assert !IsDigit(r[0]);
      assert r[1..] == NatToString(-i);
      r
    else NatToString(i)
  }

  /** A reader for the integer text written above: an optional minus sign
      followed by at least one digit. It serves as the reference the
      builders are checked against. */
  function ParseInt(s: string): Option<int>
  {
    if |s| >= 2 && s[0] == '-' && AllDigits(s[1..]) then Some(-(DigitsValue(s[1..]) as int))
    else if |s| >= 1 && AllDigits(s) then Some(DigitsValue(s))
    else None
  }

  lemma {:induction false} NatToStringValue(n: nat)
    ensures DigitsValue(NatToString(n)) == n
  {
    if n >= 10 {
      NatToStringValue(n / 10);
      var s := NatToString(n);
      assert s[..|s| - 1] == NatToString(n / 10);
    }
  }

  /** Reading back the text of an integer gives the integer. */
  lemma IntToStringRoundTrip(i: int)
    ensures ParseInt(IntToString(i)) == Some(i)
  {
    var s := IntToString(i);
    if i < 0 {
      NatToStringValue(-i);
      assert s[1..] == NatToString(-i);
      assert |s| >= 2 && s[0] == '-' && AllDigits(s[1..]);
    } else {
      NatToStringValue(i);
      assert s == NatToString(i);
      assert IsDigit(s[0]);
      assert !(|s| >= 2 && s[0] == '-');
    }
  }

  function Zeros(k: nat): (r: string)
    ensures |r| == k && AllDigits(r)
    ensures forall i :: 0 <= i < k ==> r[i] == '0'
  {
    if k == 0 then "" else "0" + Zeros(k - 1)
  }

  /** Left-pads a digit string with zeros up to `width` characters. */
  function ZeroPad(digits: string, width: nat): string
  {
    if |digits| >= width then digits else Zeros(width - |digits|) + digits
  }

  /** Python's `"{:04d}".format(n)`: the width of 4 counts the sign, and the
      zeros go between the sign and the digits (`-5` gives `-005`). */
  function FormatFourDigits(n: int): (r: string)
    ensures |r| == Max(4, |IntToString(n)|)
    ensures n >= 0 ==> AllDigits(r)
    ensures n < 0 ==> r[0] == '-' && AllDigits(r[1..])
  {
    if n < 0 then "-" + ZeroPad(NatToString(-n), 3) else ZeroPad(NatToString(n), 4)
  }

  lemma {:induction false} LeadingZerosValue(k: nat, s: string)
    requires AllDigits(s)
    ensures AllDigits(Zeros(k) + s)
    ensures DigitsValue(Zeros(k) + s) == DigitsValue(s)
  {
    if k > 0 {
      assert Zeros(k) == "0" + Zeros(k - 1);
      assert Zeros(k) + s == "0" + (Zeros(k - 1) + s);
      LeadingZerosValue(k - 1, s);
      LeadingZeroValue(Zeros(k - 1) + s);
    } else {
      assert Zeros(k) + s == s;
    }
  }

  lemma {:induction false} LeadingZeroValue(s: string)
    requires AllDigits(s)
    ensures AllDigits("0" + s)
    ensures DigitsValue("0" + s) == DigitsValue(s)
  {
    if s != [] {
      var t := "0" + s;
      assert t[..|t| - 1] == "0" + s[..|s| - 1];
      LeadingZeroValue(s[..|s| - 1]);
    }
  }

  /** The padded frame number reads back as the frame number. */
  lemma ZeroPadValue(digits: string, width: nat)
    requires AllDigits(digits) && |digits| >= 1
    ensures AllDigits(ZeroPad(digits, width)) && |ZeroPad(digits, width)| >= 1
    ensures DigitsValue(ZeroPad(digits, width)) == DigitsValue(digits)
  {
    if |digits| < width {
      LeadingZerosValue(width - |digits|, digits);
    }
  }

  lemma ParseDigits(t: string)
    requires AllDigits(t) && |t| >= 1
    ensures ParseInt(t) == Some(DigitsValue(t))
  {
    assert IsDigit(t[0]);
  }

  lemma ParseNegative(t: string)
    requires AllDigits(t) && |t| >= 1
    ensures ParseInt("-" + t) == Some(-(DigitsValue(t) as int))
  {
    assert ("-" + t)[1..] == t;
  }

  lemma FourDigitsNegative(n: int)
    requires n < 0
    ensures ParseInt(FormatFourDigits(n)) == Some(n)
  {
    var d := NatToString(-n);
    var t := ZeroPad(d, 3);
    NatToStringValue(-n);
    ZeroPadValue(d, 3);
    assert DigitsValue(t) == -n;
    ParseNegative(t);
    assert FormatFourDigits(n) == "-" + t;
  }

  lemma FourDigitsNatural(n: nat)
    ensures ParseInt(FormatFourDigits(n)) == Some(n)
  {
    var d := NatToString(n);
    NatToStringValue(n);
    ZeroPadValue(d, 4);
    ParseDigits(ZeroPad(d, 4));
  }

  lemma FourDigitsRoundTrip(n: int)
    ensures ParseInt(FormatFourDigits(n)) == Some(n)
  {
    if n < 0 {
      FourDigitsNegative(n);
    } else {
      FourDigitsNatural(n);
    }
  }

  lemma FourDigitsInjective(a: int, b: int)
    ensures FormatFourDigits(a) == FormatFourDigits(b) <==> a == b
  {
    FourDigitsRoundTrip(a);
    FourDigitsRoundTrip(b);
  }

  /** `s` with `prefix` removed from its front, if it starts with it. */
  function StripPrefix(prefix: string, s: string): (r: Option<string>)
    ensures r.Some? ==> s == prefix + r.value
    ensures r.None? ==> !(|prefix| <= |s| && s[..|prefix|] == prefix)
  {
    if |prefix| <= |s| && s[..|prefix|] == prefix then Some(s[|prefix|..]) else None
  }

  lemma StripPrefixOfConcat(prefix: string, rest: string)
    ensures StripPrefix(prefix, prefix + rest) == Some(rest)
  {
    assert (prefix + rest)[..|prefix|] == prefix;
    assert (prefix + rest)[|prefix|..] == rest;
  }

  /** `s` with `suffix` removed from its end, if it ends with it. */
  function StripSuffix(suffix: string, s: string): (r: Option<string>)
    ensures r.Some? ==> s == r.value + suffix
  {
    if |suffix| <= |s| && s[|s| - |suffix|..] == suffix then Some(s[..|s| - |suffix|]) else None
  }

  lemma StripSuffixOfConcat(rest: string, suffix: string)
    ensures StripSuffix(suffix, rest + suffix) == Some(rest)
  {
    var s := rest + suffix;
    assert s[|s| - |suffix|..] == suffix;
    assert s[..|s| - |suffix|] == rest;
  }

  /** `s` cut at the first `c`: the text before it and the text after it. */
  function SplitFirst(s: string, c: char): (r: Option<(string, string)>)
    ensures r.None? <==> c !in s
    ensures r.Some? ==> s == r.value.0 + [c] + r.value.1 && c !in r.value.0
  {
    if s == [] then None
    else if s[0] == c then Some(([], s[1..]))
    else
      match SplitFirst(s[1..], c)
      case None => None
      case Some(parts) => Some(([s[0]] + parts.0, parts.1))
  }

  /** Cutting `a + [c] + b` at its first `c` gives back `a` and `b` when `a`
      holds no `c`. */
  lemma {:induction false} SplitFirstOf(a: string, c: char, b: string)
    requires c !in a
    ensures SplitFirst(a + [c] + b, c) == Some((a, b))
  {
    if a == [] {
      assert a + [c] + b == [c] + b;
    } else {
      assert (a + [c] + b)[1..] == a[1..] + [c] + b;
      SplitFirstOf(a[1..], c, b);
      assert a == [a[0]] + a[1..];
    }
  }

  predicate OccursAt(s: string, m: string, i: nat)
  {
    i + |m| <= |s| && s[i..i + |m|] == m
  }

  predicate Contains(s: string, m: string)
  {
    exists i: nat | i <= |s| :: OccursAt(s, m, i)
  }

  /** Python's `s.replace(m, r)` for a non-empty `m`: scans left to right and
      replaces each non-overlapping occurrence. */
  function ReplaceAll(s: string, m: string, r: string): string
    requires |m| > 0
    decreases |s|
  {
    if |s| < |m| then s
    else if s[..|m|] == m then r + ReplaceAll(s[|m|..], m, r)
    else [s[0]] + ReplaceAll(s[1..], m, r)
  }

  /** An occurrence in a suffix is an occurrence in the whole text. */
  lemma OccursShift(s: string, m: string, i: nat)
    requires |s| > 0 && OccursAt(s[1..], m, i)
    ensures OccursAt(s, m, i + 1)
  {
    assert s[i + 1..i + 1 + |m|] == s[1..][i..i + |m|];
  }

  /** Where the marker does not start, one character is copied. */
  lemma ReplaceStep(s: string, m: string, r: string)
    requires |m| > 0 && |s| >= |m| && !OccursAt(s, m, 0)
    ensures ReplaceAll(s, m, r) == [s[0]] + ReplaceAll(s[1..], m, r)
  {
  }

  /** Text without the marker is returned unchanged. */
  lemma {:induction false} ReplaceWithoutMarker(s: string, m: string, r: string)
    requires |m| > 0 && !Contains(s, m)
    ensures ReplaceAll(s, m, r) == s
    decreases |s|
  {
    if |s| >= |m| {
      assert !OccursAt(s, m, 0);
      ReplaceStep(s, m, r);
      if Contains(s[1..], m) {
        var i: nat :| i <= |s[1..]| && OccursAt(s[1..], m, i);
        OccursShift(s, m, i);
        assert false;
      }
      ReplaceWithoutMarker(s[1..], m, r);
      assert s == [s[0]] + s[1..];
    }
  }

  /** The first occurrence of the marker is replaced, and the scan resumes
      right after it. */
  lemma {:induction false} ReplaceFirst(a: string, m: string, b: string, r: string)
    requires |m| > 0
    requires forall i: nat :: i < |a| ==> !OccursAt(a + m + b, m, i)
    ensures ReplaceAll(a + m + b, m, r) == a + r + ReplaceAll(b, m, r)
    decreases |a|
  {
    var s := a + m + b;
    if a == [] {
      assert s == m + b;
      assert s[..|m|] == m;
      assert s[|m|..] == b;
    } else {
      assert !OccursAt(s, m, 0);
      ReplaceStep(s, m, r);
      var a' := a[1..];
      assert s[1..] == a' + m + b;
      NoEarlierMarker(a, m, b);
      ReplaceFirst(a', m, b, r);
      assert a == [a[0]] + a';
      assert s[0] == a[0];
    }
  }

  /** Dropping the first character keeps the marker out of the prefix. */
  lemma NoEarlierMarker(a: string, m: string, b: string)
    requires |a| > 0
    requires forall i: nat :: i < |a| ==> !OccursAt(a + m + b, m, i)
    ensures forall i: nat :: i < |a[1..]| ==> !OccursAt(a[1..] + m + b, m, i)
  {
    var s := a + m + b;
    assert s[1..] == a[1..] + m + b;
    forall i: nat | i < |a[1..]|
      ensures !OccursAt(a[1..] + m + b, m, i)
    {
      if OccursAt(s[1..], m, i) {
        OccursShift(s, m, i);
      }
    }
  }
}

=== FILE: worker.dfy ===
/** The `__main__` block of `Render.py`: register the node, take the pending
    job with the smallest id, then run `get_total_frames` iterations of
    obtain-a-pending-frame, mark it in progress, write its scene file, call
    the renderer and record the outcome. Host facts, the template's text,
    the engine path, float-to-text and the renderer's exit code are inputs. */
module Worker {
  import opened Base
  import opened Text
  import opened Tables
  import opened Cluster
  import opened Render

  /** What `get_node_info` probes on the host. */
  datatype HostInfo = HostInfo(hostname: string, ipAddress: string, cpuCores: int, memoryGb: Float)

  /** One `update_frame_status` call made by the worker. */
  datatype StatusWrite = StatusWrite(frameId: int, status: string)

  /** One renderer invocation: the frame, the argument list and the exit code. */
  datatype RenderCall = RenderCall(frameId: int, command: seq<string>, exitCode: int)

  /** Where the script stops with an exception: `jobDetails[0]` when no job
      is pending, or `get_next_frame(...)[0]` in the given iteration when the
      job has no pending frame left. */
  datatype Crash = NoPendingJob | NoPendingFrame(iteration: nat)

  /** The database and files after the run, the job it took, the status
      writes and renderer calls made, in order, and the crash, if the script
      stopped with one. */
  datatype Run = Run(store: Store, files: map<string, string>, job: Option<JobRow>,
                     writes: seq<StatusWrite>, calls: seq<RenderCall>, crash: Option<Crash>)

  /** The status recorded for a frame from the renderer's exit code. */
  function FinalStatus(exitCode: int): (r: string)
    ensures r != Pending && r != InProgress
    ensures r == Rendered <==> exitCode == 0
    ensures r == Failed <==> exitCode != 0
  {
    if exitCode != 0 then Failed else Rendered
  }

  function FrameIds(calls: seq<RenderCall>): (r: seq<int>)
    ensures |r| == |calls|
    ensures forall k :: 0 <= k < |calls| ==> r[k] == calls[k].frameId
  {
    seq(|calls|, k requires 0 <= k < |calls| => calls[k].frameId)
  }

  // ------------------------------------------------------- scene writing

  /** The texture group of a frame, as `get_particles` returns it. */
  function Group(s: Store, jobId: int, frameId: int, t: TextureRow): seq<ParticleView>
  {
    GetParticles(s, jobId, frameId, t.textureId)
  }

  /** The last texture group, in `get_textures` order, that has particles. */
  function LastNonEmptyGroup(s: Store, jobId: int, frameId: int, textures: seq<TextureRow>): Option<seq<ParticleView>>
  {
    if textures == [] then None
    else
      match LastNonEmptyGroup(s, jobId, frameId, textures[1..])
      case Some(ps) => Some(ps)
      case None =>
        var ps := Group(s, jobId, frameId, textures[0]);
        if ps != [] then Some(ps) else None
  }

  /** `LastNonEmptyGroup` finds nothing exactly when every group is empty,
      and otherwise a non-empty group after which every group is empty. */
  lemma {:induction false} LastNonEmptyGroupIsLast(s: Store, jobId: int, frameId: int, textures: seq<TextureRow>)
    ensures var r := LastNonEmptyGroup(s, jobId, frameId, textures);
      && (r.None? <==> forall k :: 0 <= k < |textures| ==> Group(s, jobId, frameId, textures[k]) == [])
      && (r.Some? ==> r.value != [])
      && (r.Some? ==>
            exists k :: 0 <= k < |textures| && Group(s, jobId, frameId, textures[k]) == r.value
              && forall k' :: k < k' < |textures| ==> Group(s, jobId, frameId, textures[k']) == [])
  {
    if textures != [] {
      var tail := textures[1..];
      LastNonEmptyGroupIsLast(s, jobId, frameId, tail);
      assert forall k :: 1 <= k < |textures| ==> textures[k] == tail[k - 1];
      var rt := LastNonEmptyGroup(s, jobId, frameId, tail);
      if rt.Some? {
        var k :| 0 <= k < |tail| && Group(s, jobId, frameId, tail[k]) == rt.value
          && forall k' :: k < k' < |tail| ==> Group(s, jobId, frameId, tail[k']) == [];
        assert Group(s, jobId, frameId, textures[k + 1]) == rt.value;
      } else {
        assert forall k' :: 0 < k' < |textures| ==> Group(s, jobId, frameId, textures[k']) == [];
      }
    }
  }

  /** The scene file of a frame written from one group of particles. */
  function WithScene(files: map<string, string>, job: JobRow, frameId: int, ps: seq<ParticleView>,
                     template: string, show: Float -> string): map<string, string>
  {
    files[PovPath(job.jobName, frameId) := SceneText(template, FormatParticleObjects(ps, show))]
  }

  /** A second write of the same scene file replaces the first. */
  lemma OverwriteScene(files: map<string, string>, job: JobRow, frameId: int, ps: seq<ParticleView>,
                       qs: seq<ParticleView>, template: string, show: Float -> string)
    ensures WithScene(WithScene(files, job, frameId, ps, template, show), job, frameId, qs, template, show)
         == WithScene(files, job, frameId, qs, template, show)
  {
  }

  /** The texture loop of `Render.py`: each group that returned particles
      rewrites the frame's scene file from the template. */
  function WriteSceneGroups(files: map<string, string>, s: Store, job: JobRow, frameId: int,
                            textures: seq<TextureRow>, template: string,
                            show: Float -> string): (r: map<string, string>)
    ensures forall p :: p != PovPath(job.jobName, frameId) ==> SameFile(r, files, p)
    decreases |textures|
  {
    if textures == [] then files
    else
      var ps := Group(s, job.jobId, frameId, textures[0]);
      var next := if ps != [] then WithScene(files, job, frameId, ps, template, show) else files;
      SceneOnlyPath(files, job, frameId, ps, template, show);
      var r := WriteSceneGroups(next, s, job, frameId, textures[1..], template, show);
      OtherPathsChain(files, next, r, PovPath(job.jobName, frameId));
      r
  }

  lemma OtherPathsChain(a: map<string, string>, b: map<string, string>, c: map<string, string>, path: string)
    requires forall p :: p != path ==> SameFile(b, a, p)
    requires forall p :: p != path ==> SameFile(c, b, p)
    ensures forall p :: p != path ==> SameFile(c, a, p)
  {
    forall p | p != path
      ensures SameFile(c, a, p)
    {
      assert SameFile(b, a, p) && SameFile(c, b, p);
    }
  }

  /** Writing a frame's scene file leaves every other path as it was. */
  lemma SceneOnlyPath(files: map<string, string>, job: JobRow, frameId: int, ps: seq<ParticleView>,
                      template: string, show: Float -> string)
    ensures forall p :: p != PovPath(job.jobName, frameId) ==>
      SameFile(WithScene(files, job, frameId, ps, template, show), files, p)
  {
  }

  /** The scene file a frame ends up with: the template filled with the last
      non-empty group only; no file is written when every group is empty. */
  function SceneFiles(files: map<string, string>, s: Store, job: JobRow, frameId: int,
                      textures: seq<TextureRow>, template: string,
                      show: Float -> string): map<string, string>
  {
    match LastNonEmptyGroup(s, job.jobId, frameId, textures)
    case None => files
    case Some(ps) => WithScene(files, job, frameId, ps, template, show)
  }

  /** Writing the groups one after the other leaves only the last
      non-empty one in the file. */
  lemma {:induction false} SceneFileHoldsLastGroup(files: map<string, string>, s: Store, job: JobRow,
                                                   frameId: int, textures: seq<TextureRow>,
                                                   template: string, show: Float -> string)
    ensures WriteSceneGroups(files, s, job, frameId, textures, template, show)
         == SceneFiles(files, s, job, frameId, textures, template, show)
    decreases |textures|
  {
    if textures != [] {
      var ps := Group(s, job.jobId, frameId, textures[0]);
      var next := if ps != [] then WithScene(files, job, frameId, ps, template, show) else files;
      SceneFileHoldsLastGroup(next, s, job, frameId, textures[1..], template, show);
      var rt := LastNonEmptyGroup(s, job.jobId, frameId, textures[1..]);
      if rt.Some? && ps != [] {
        OverwriteScene(files, job, frameId, ps, rt.value, template, show);
      }
    }
  }

  /** Only the particles and textures tables matter to the scene text. */
  lemma {:induction false} GroupsIgnoreOtherTables(s: Store, t: Store, jobId: int, frameId: int,
                                                   textures: seq<TextureRow>)
    requires s.particles == t.particles && s.textures == t.textures
    ensures LastNonEmptyGroup(s, jobId, frameId, textures) == LastNonEmptyGroup(t, jobId, frameId, textures)
  {
    if textures != [] {
      GroupsIgnoreOtherTables(s, t, jobId, frameId, textures[1..]);
    }
  }

  // ------------------------------------------------------ pending frames

  /** Within the job, no two frame rows share a frame number. */
  ghost predicate DistinctFrameIds(rows: seq<FrameRow>, jobId: int)
  {
    forall a, b :: 0 <= a < b < |rows| && rows[a].jobId == jobId && rows[b].jobId == jobId ==>
      rows[a].frameId != rows[b].frameId
  }

  /** How much one row adds to the job's pending count. */
  function PendingOne(row: FrameRow, jobId: int): (n: nat)
    ensures n <= 1
  {
    if row.jobId == jobId && row.status == Pending then 1 else 0
  }

  /** The pending count after an update, one row at a time. */
  lemma PendingAfterSet(rows: seq<FrameRow>, jobId: int, frameId: int, status: string)
    requires rows != []
    ensures PendingCount(SetStatus(rows, frameId, status), jobId)
         == PendingOne(SetStatus(rows, frameId, status)[0], jobId)
            + PendingCount(SetStatus(rows[1..], frameId, status), jobId)
  {
    assert SetStatus(rows, frameId, status)[1..] == SetStatus(rows[1..], frameId, status);
  }

  /** Without its first row the job's frame numbers stay distinct. */
  lemma DistinctTail(rows: seq<FrameRow>, jobId: int)
    requires rows != [] && DistinctFrameIds(rows, jobId)
    ensures DistinctFrameIds(rows[1..], jobId)
    ensures rows[0].jobId == jobId ==>
      forall k :: 0 <= k < |rows[1..]| && rows[1..][k].jobId == jobId ==> rows[1..][k].frameId != rows[0].frameId
  {
    var tail := rows[1..];
    forall a, b | 0 <= a < b < |tail| && tail[a].jobId == jobId && tail[b].jobId == jobId
      ensures tail[a].frameId != tail[b].frameId
    {
      assert tail[a] == rows[a + 1] && tail[b] == rows[b + 1];
    }
    if rows[0].jobId == jobId {
      forall k | 0 <= k < |tail| && tail[k].jobId == jobId
        ensures tail[k].frameId != rows[0].frameId
      {
        assert tail[k] == rows[k + 1];
      }
    }
  }

  /** No update to a non-pending status adds a pending row. */
  lemma {:induction false} UpdateAddsNoPending(rows: seq<FrameRow>, jobId: int, frameId: int, status: string)
    requires status != Pending
    ensures PendingCount(SetStatus(rows, frameId, status), jobId) <= PendingCount(rows, jobId)
  {
    if rows != [] {
      PendingAfterSet(rows, jobId, frameId, status);
      UpdateAddsNoPending(rows[1..], jobId, frameId, status);
    }
  }

  /** Moving a pending frame of the job to a non-pending status removes at
      least one pending row of the job. */
  lemma {:induction false} UpdateRemovesPending(rows: seq<FrameRow>, jobId: int, frameId: int, status: string)
    requires status != Pending
    requires FrameRow(jobId, frameId, Pending) in rows
    ensures PendingCount(SetStatus(rows, frameId, status), jobId) < PendingCount(rows, jobId)
  {
    PendingAfterSet(rows, jobId, frameId, status);
    if rows[0] == FrameRow(jobId, frameId, Pending) {
      UpdateAddsNoPending(rows[1..], jobId, frameId, status);
    } else {
      assert FrameRow(jobId, frameId, Pending) in rows[1..];
      UpdateRemovesPending(rows[1..], jobId, frameId, status);
    }
  }

  /** With distinct frame numbers it removes exactly one. */
  lemma {:induction false} UpdateRemovesOnePending(rows: seq<FrameRow>, jobId: int, frameId: int, status: string)
    requires status != Pending
    requires FrameRow(jobId, frameId, Pending) in rows && DistinctFrameIds(rows, jobId)
    ensures PendingCount(SetStatus(rows, frameId, status), jobId) == PendingCount(rows, jobId) - 1
  {
    PendingAfterSet(rows, jobId, frameId, status);
    DistinctTail(rows, jobId);
    if rows[0] == FrameRow(jobId, frameId, Pending) {
      NoOtherRowOfFrame(rows[1..], jobId, frameId, status);
    } else {
      assert FrameRow(jobId, frameId, Pending) in rows[1..];
      UpdateRemovesOnePending(rows[1..], jobId, frameId, status);
    }
  }

  /** An update of a frame the job does not have leaves its pending count alone. */
  lemma {:induction false} NoOtherRowOfFrame(rows: seq<FrameRow>, jobId: int, frameId: int, status: string)
    requires forall k :: 0 <= k < |rows| && rows[k].jobId == jobId ==> rows[k].frameId != frameId
    ensures PendingCount(SetStatus(rows, frameId, status), jobId) == PendingCount(rows, jobId)
  {
    if rows != [] {
      PendingAfterSet(rows, jobId, frameId, status);
      NoOtherRowOfFrame(rows[1..], jobId, frameId, status);
    }
  }

  /** Frames created by `insert_frames` for a job that had none are all
      pending, as many as `get_total_frames` counts, with distinct numbers. */
  lemma FreshJobFramesAllPending(s: Store, jobId: int, numFrames: int)
    requires FetchFrameByJob(s, jobId) == []
    ensures var t := InsertFrames(s, jobId, numFrames).0;
      && DistinctFrameIds(t.frames, jobId)
      && PendingCount(t.frames, jobId) == GetTotalFrames(t, jobId)
  {
    var t := InsertFrames(s, jobId, numFrames).0;
    var run := PendingRun(jobId, 1, numFrames);
    InsertFramesThenTotal(s, jobId, numFrames);
    NoFramesOfJob(s, jobId);
    NoPendingOfOtherJobs(s.frames, jobId);
    PendingRunAllPending(jobId, 1, numFrames);
    PendingCountAppend(s.frames, run, jobId);
    CountFramesAppend(s.frames, run, jobId);
    PendingRunOfJob(jobId, 1, numFrames);
  }

  lemma NoFramesOfJob(s: Store, jobId: int)
    requires FetchFrameByJob(s, jobId) == []
    ensures forall k :: 0 <= k < |s.frames| ==> s.frames[k].jobId != jobId
  {
    forall k | 0 <= k < |s.frames|
      ensures s.frames[k].jobId != jobId
    {
      assert s.frames[k] in s.frames;
    }
  }

  lemma {:induction false} NoPendingOfOtherJobs(rows: seq<FrameRow>, jobId: int)
    requires forall k :: 0 <= k < |rows| ==> rows[k].jobId != jobId
    ensures PendingCount(rows, jobId) == 0
  {
    if rows != [] {
      NoPendingOfOtherJobs(rows[1..], jobId);
    }
  }

  lemma {:induction false} PendingRunAllPending(jobId: int, lo: int, hi: int)
    ensures PendingCount(PendingRun(jobId, lo, hi), jobId) == Max(0, hi - lo + 1)
    decreases hi - lo
  {
    if lo <= hi {
      PendingRunAllPending(jobId, lo + 1, hi);
    }
  }

  lemma {:induction false} PendingCountAppend(a: seq<FrameRow>, b: seq<FrameRow>, jobId: int)
    ensures PendingCount(a + b, jobId) == PendingCount(a, jobId) + PendingCount(b, jobId)
  {
    if a != [] {
      assert (a + b)[1..] == a[1..] + b;
      PendingCountAppend(a[1..], b, jobId);
    } else {
      assert a + b == b;
    }
  }

  // ------------------------------------------------------------ the loop

  /** What the loop has done to the frame rows so far: ids never change,
      rows of frames not yet rendered are untouched, rows of rendered frame
      numbers hold their outcome, and each rendered frame was a distinct
      pending frame of the job. */
  ghost predicate RowsTrack(f0: seq<FrameRow>, frames: seq<FrameRow>, calls: seq<RenderCall>, jobId: int)
  {
    && |frames| == |f0|
    && (forall r :: 0 <= r < |f0| ==> frames[r].jobId == f0[r].jobId && frames[r].frameId == f0[r].frameId)
    && (forall r :: 0 <= r < |f0| && f0[r].frameId !in FrameIds(calls) ==> frames[r] == f0[r])
    && (forall k, r :: 0 <= k < |calls| && 0 <= r < |f0| && f0[r].frameId == calls[k].frameId ==>
          frames[r] == f0[r].(status := FinalStatus(calls[k].exitCode)))
    && (forall k :: 0 <= k < |calls| ==> FrameRow(jobId, calls[k].frameId, Pending) in f0)
    && (forall k, k' :: 0 <= k < k' < |calls| ==> calls[k].frameId != calls[k'].frameId)
  }

  /** A frame still pending has not been rendered yet, and was pending
      before the run. */
  lemma PendingNotRendered(f0: seq<FrameRow>, frames: seq<FrameRow>, calls: seq<RenderCall>, jobId: int, f: int)
    requires RowsTrack(f0, frames, calls, jobId)
    requires FrameRow(jobId, f, Pending) in frames
    ensures f !in FrameIds(calls)
    ensures FrameRow(jobId, f, Pending) in f0
  {
    var r :| 0 <= r < |frames| && frames[r] == FrameRow(jobId, f, Pending);
    forall k | 0 <= k < |calls|
      ensures FrameIds(calls)[k] != f
    {
      assert f0[r].frameId == f && FrameIds(calls)[k] == calls[k].frameId;
    }
    assert f0[r] == frames[r];
  }

  /** After rendering `f`, rows of its frame number hold the outcome and
      rows of the frames rendered before are as they were. */
  lemma OutcomeRowsStep(f0: seq<FrameRow>, frames: seq<FrameRow>, calls: seq<RenderCall>, jobId: int,
                        f: int, cmd: seq<string>, code: int)
    requires RowsTrack(f0, frames, calls, jobId)
    requires f !in FrameIds(calls)
    ensures var frames' := SetStatus(frames, f, FinalStatus(code));
      var calls' := calls + [RenderCall(f, cmd, code)];
      forall k, r :: 0 <= k < |calls'| && 0 <= r < |f0| && f0[r].frameId == calls'[k].frameId ==>
        frames'[r] == f0[r].(status := FinalStatus(calls'[k].exitCode))
  {
    var frames' := SetStatus(frames, f, FinalStatus(code));
    var calls' := calls + [RenderCall(f, cmd, code)];
    forall k, r | 0 <= k < |calls'| && 0 <= r < |f0| && f0[r].frameId == calls'[k].frameId
      ensures frames'[r] == f0[r].(status := FinalStatus(calls'[k].exitCode))
    {
      if k < |calls| {
        assert calls'[k] == calls[k] && FrameIds(calls)[k] == calls[k].frameId;
      }
    }
  }

  /** After rendering `f`, rows of frames still not rendered are untouched. */
  lemma UntouchedRowsStep(f0: seq<FrameRow>, frames: seq<FrameRow>, calls: seq<RenderCall>, jobId: int,
                          f: int, cmd: seq<string>, code: int)
    requires RowsTrack(f0, frames, calls, jobId)
    ensures var frames' := SetStatus(frames, f, FinalStatus(code));
      var calls' := calls + [RenderCall(f, cmd, code)];
      forall r :: 0 <= r < |f0| && f0[r].frameId !in FrameIds(calls') ==> frames'[r] == f0[r]
  {
    var calls' := calls + [RenderCall(f, cmd, code)];
    assert FrameIds(calls') == FrameIds(calls) + [f];
  }

  /** Rendering a pending frame keeps the rows on track. */
  lemma RowsStep(f0: seq<FrameRow>, frames: seq<FrameRow>, calls: seq<RenderCall>, jobId: int,
                 f: int, cmd: seq<string>, code: int)
    requires RowsTrack(f0, frames, calls, jobId)
    requires FrameRow(jobId, f, Pending) in frames
    ensures f !in FrameIds(calls)
    ensures FrameRow(jobId, f, Pending) in f0
    ensures RowsTrack(f0, SetStatus(frames, f, FinalStatus(code)), calls + [RenderCall(f, cmd, code)], jobId)
  {
    PendingNotRendered(f0, frames, calls, jobId, f);
    OutcomeRowsStep(f0, frames, calls, jobId, f, cmd, code);
    UntouchedRowsStep(f0, frames, calls, jobId, f, cmd, code);
    var calls' := calls + [RenderCall(f, cmd, code)];
    forall k, k' | 0 <= k < k' < |calls'|
      ensures calls'[k].frameId != calls'[k'].frameId
    {
      if k' == |calls| {
        assert FrameIds(calls)[k] == calls[k].frameId;
      }
    }
  }

  /** The pending rows of the job fall by at least one per iteration, and by
      exactly one when the job's frame numbers are distinct. */
  ghost predicate PendingTrack(f0: seq<FrameRow>, frames: seq<FrameRow>, jobId: int, i: nat)
  {
    && PendingCount(frames, jobId) + i <= PendingCount(f0, jobId)
    && (DistinctFrameIds(f0, jobId) ==> PendingCount(frames, jobId) + i == PendingCount(f0, jobId))
  }

  lemma PendingStep(f0: seq<FrameRow>, frames: seq<FrameRow>, calls: seq<RenderCall>, jobId: int,
                    f: int, code: int, i: nat)
    requires RowsTrack(f0, frames, calls, jobId) && PendingTrack(f0, frames, jobId, i)
    requires FrameRow(jobId, f, Pending) in frames
    ensures PendingTrack(f0, SetStatus(frames, f, FinalStatus(code)), jobId, i + 1)
  {
    UpdateRemovesPending(frames, jobId, f, FinalStatus(code));
    if DistinctFrameIds(f0, jobId) {
      assert DistinctFrameIds(frames, jobId);
      UpdateRemovesOnePending(frames, jobId, f, FinalStatus(code));
    }
  }

  /** The two file maps agree on a path. */
  ghost predicate SameFile(files: map<string, string>, files0: map<string, string>, path: string)
  {
    (path in files <==> path in files0) && (path in files0 ==> files[path] == files0[path])
  }

  /** The scene files of the frames rendered so far. */
  function ScenePaths(jobName: string, calls: seq<RenderCall>): (r: seq<string>)
    ensures |r| == |calls|
    ensures forall k :: 0 <= k < |calls| ==> r[k] == PovPath(jobName, calls[k].frameId)
  {
    seq(|calls|, k requires 0 <= k < |calls| => PovPath(jobName, calls[k].frameId))
  }

  /** A rendered frame's scene file holds the template filled with the
      frame's last non-empty group; with no such group it is as before the run. */
  ghost predicate SceneWritten(files0: map<string, string>, files: map<string, string>, s0: Store,
                               job: JobRow, frameId: int, template: string, show: Float -> string)
  {
    var path := PovPath(job.jobName, frameId);
    match LastNonEmptyGroup(s0, job.jobId, frameId, s0.textures)
    case Some(ps) => path in files && files[path] == SceneText(template, FormatParticleObjects(ps, show))
    case None => SameFile(files, files0, path)
  }

  /** Every rendered frame's scene file is written as above, and no other
      file was touched. */
  ghost predicate ScenesTrack(files0: map<string, string>, files: map<string, string>, s0: Store, job: JobRow,
                              calls: seq<RenderCall>, template: string, show: Float -> string)
  {
    && (forall k :: 0 <= k < |calls| ==> SceneWritten(files0, files, s0, job, calls[k].frameId, template, show))
    && (forall path :: path !in ScenePaths(job.jobName, calls) ==> SameFile(files, files0, path))
  }

  lemma SceneWrittenKept(files0: map<string, string>, files: map<string, string>, files': map<string, string>,
                         s0: Store, job: JobRow, frameId: int, template: string, show: Float -> string)
    requires SceneWritten(files0, files, s0, job, frameId, template, show)
    requires SameFile(files', files, PovPath(job.jobName, frameId))
    ensures SceneWritten(files0, files', s0, job, frameId, template, show)
  {
  }

  /** The frame just written holds its last non-empty group, provided its
      scene file was as before the run until then. */
  lemma NewSceneWritten(files0: map<string, string>, files: map<string, string>, s0: Store, s: Store,
                        job: JobRow, f: int, template: string, show: Float -> string)
    requires s.particles == s0.particles && s.textures == s0.textures
    requires SameFile(files, files0, PovPath(job.jobName, f))
    ensures SceneWritten(files0, WriteSceneGroups(files, s, job, f, s.textures, template, show), s0, job, f,
                         template, show)
  {
    SceneFileHoldsLastGroup(files, s, job, f, s.textures, template, show);
    GroupsIgnoreOtherTables(s, s0, job.jobId, f, s.textures);
  }

  /** A frame not rendered yet has a scene path none of the rendered frames uses. */
  lemma FreshScenePath(jobName: string, calls: seq<RenderCall>, f: int)
    requires f !in FrameIds(calls)
    ensures PovPath(jobName, f) !in ScenePaths(jobName, calls)
  {
    forall k | 0 <= k < |calls|
      ensures ScenePaths(jobName, calls)[k] != PovPath(jobName, f)
    {
      assert FrameIds(calls)[k] == calls[k].frameId;
      FrameFilesDistinct(jobName, calls[k].frameId, f);
    }
  }

  /** Scene files of frames rendered earlier survive a later frame's writes. */
  lemma OldScenesKept(files0: map<string, string>, files: map<string, string>, files': map<string, string>,
                      s0: Store, job: JobRow, calls: seq<RenderCall>, template: string, show: Float -> string,
                      f: int)
    requires forall k :: 0 <= k < |calls| ==> SceneWritten(files0, files, s0, job, calls[k].frameId, template, show)
    requires forall p :: p != PovPath(job.jobName, f) ==> SameFile(files', files, p)
    requires f !in FrameIds(calls)
    ensures forall k :: 0 <= k < |calls| ==> SceneWritten(files0, files', s0, job, calls[k].frameId, template, show)
  {
    forall k | 0 <= k < |calls|
      ensures SceneWritten(files0, files', s0, job, calls[k].frameId, template, show)
    {
      assert FrameIds(calls)[k] == calls[k].frameId;
      FrameFilesDistinct(job.jobName, calls[k].frameId, f);
      SceneWrittenKept(files0, files, files', s0, job, calls[k].frameId, template, show);
    }
  }

  lemma ScenesStep(files0: map<string, string>, files: map<string, string>, s0: Store, s: Store, job: JobRow,
                   calls: seq<RenderCall>, template: string, show: Float -> string,
                   f: int, cmd: seq<string>, code: int)
    requires ScenesTrack(files0, files, s0, job, calls, template, show)
    requires s.particles == s0.particles && s.textures == s0.textures
    requires f !in FrameIds(calls)
    ensures ScenesTrack(files0, WriteSceneGroups(files, s, job, f, s.textures, template, show), s0, job,
                        calls + [RenderCall(f, cmd, code)], template, show)
  {
    var path := PovPath(job.jobName, f);
    var files' := WriteSceneGroups(files, s, job, f, s.textures, template, show);
    var calls' := calls + [RenderCall(f, cmd, code)];
    FreshScenePath(job.jobName, calls, f);
    NewSceneWritten(files0, files, s0, s, job, f, template, show);
    OldScenesKept(files0, files, files', s0, job, calls, template, show, f);
    assert ScenePaths(job.jobName, calls') == ScenePaths(job.jobName, calls) + [path];
    UntouchedStay(files0, files, files', ScenePaths(job.jobName, calls), path);
    forall k | 0 <= k < |calls'|
      ensures SceneWritten(files0, files', s0, job, calls'[k].frameId, template, show)
    {
      if k < |calls| {
        assert calls'[k] == calls[k];
      }
    }
  }

  /** Files outside the written paths stay as they were before the run. */
  lemma UntouchedStay(files0: map<string, string>, files: map<string, string>, files': map<string, string>,
                      paths: seq<string>, path: string)
    requires forall p :: p !in paths ==> SameFile(files, files0, p)
    requires forall p :: p != path ==> SameFile(files', files, p)
    ensures forall p :: p !in paths + [path] ==> SameFile(files', files0, p)
  {
    forall p | p !in paths + [path]
      ensures SameFile(files', files0, p)
    {
      assert SameFile(files, files0, p) && SameFile(files', files, p);
    }
  }

  /** Each renderer call was preceded by an `'in progress'` write and
      followed by the outcome write, with the argument list built for the
      frame's files and the exit code the renderer gave for it. */
  ghost predicate CallsTrack(writes: seq<StatusWrite>, calls: seq<RenderCall>, enginePath: string, job: JobRow,
                             renderer: (nat, seq<string>) -> int)
  {
    WritesTrack(writes, calls) && CommandsTrack(calls, FrameCommand(enginePath, job), renderer)
  }

  /** The argument list `CallRenderEngine` builds for a frame of the job. */
  function FrameCommand(enginePath: string, job: JobRow): int -> seq<string>
  {
    f => RenderCommand(enginePath, job, PovPath(job.jobName, f), PngPath(job.jobName, f))
  }

  /** The status writes, two per renderer call. */
  ghost predicate WritesTrack(writes: seq<StatusWrite>, calls: seq<RenderCall>)
  {
    && |writes| == 2 * |calls|
    && (forall k :: 0 <= k < |calls| ==>
          && writes[2 * k] == StatusWrite(calls[k].frameId, InProgress)
          && writes[2 * k + 1] == StatusWrite(calls[k].frameId, FinalStatus(calls[k].exitCode)))
  }

  /** The argument list and exit code of each renderer call. */
  ghost predicate CommandsTrack(calls: seq<RenderCall>, command: int -> seq<string>,
                                renderer: (nat, seq<string>) -> int)
  {
    forall k :: 0 <= k < |calls| ==> CallMade(calls[k], k, command, renderer)
  }

  /** The k-th renderer call got the frame's argument list and returned
      what the renderer gave for it. */
  ghost predicate CallMade(call: RenderCall, k: nat, command: int -> seq<string>,
                           renderer: (nat, seq<string>) -> int)
  {
    && call.command == command(call.frameId)
    && call.exitCode == renderer(k, call.command)
  }

  lemma CallsStep(writes: seq<StatusWrite>, calls: seq<RenderCall>, enginePath: string, job: JobRow,
                  renderer: (nat, seq<string>) -> int, f: int)
    requires CallsTrack(writes, calls, enginePath, job, renderer)
    ensures var cmd := RenderCommand(enginePath, job, PovPath(job.jobName, f), PngPath(job.jobName, f));
      var code := renderer(|calls|, cmd);
      CallsTrack(writes + [StatusWrite(f, InProgress), StatusWrite(f, FinalStatus(code))],
                 calls + [RenderCall(f, cmd, code)], enginePath, job, renderer)
  {
    var cmd := RenderCommand(enginePath, job, PovPath(job.jobName, f), PngPath(job.jobName, f));
    var code := renderer(|calls|, cmd);
    WritesStep(writes, calls, RenderCall(f, cmd, code));
    CommandsStep(calls, FrameCommand(enginePath, job), renderer, RenderCall(f, cmd, code));
  }

  lemma WritesStep(writes: seq<StatusWrite>, calls: seq<RenderCall>, call: RenderCall)
    requires WritesTrack(writes, calls)
    ensures WritesTrack(writes + [StatusWrite(call.frameId, InProgress),
                                  StatusWrite(call.frameId, FinalStatus(call.exitCode))], calls + [call])
  {
    var writes' := writes + [StatusWrite(call.frameId, InProgress),
                             StatusWrite(call.frameId, FinalStatus(call.exitCode))];
    var calls' := calls + [call];
    assert forall k :: 0 <= k < |calls| ==> calls'[k] == calls[k];
    assert forall k :: 0 <= k < |calls| ==> writes'[2 * k] == writes[2 * k] && writes'[2 * k + 1] == writes[2 * k + 1];
  }

  lemma CommandsStep(calls: seq<RenderCall>, command: int -> seq<string>,
                     renderer: (nat, seq<string>) -> int, call: RenderCall)
    requires CommandsTrack(calls, command, renderer)
    requires CallMade(call, |calls|, command, renderer)
    ensures CommandsTrack(calls + [call], command, renderer)
  {
    var calls' := calls + [call];
    forall k | 0 <= k < |calls'|
      ensures CallMade(calls'[k], k, command, renderer)
    {
      if k < |calls| {
        assert calls'[k] == calls[k];
      } else {
        assert calls'[k] == call;
      }
    }
  }

  /** One pass of the loop body on a frame `get_next_frame` returned: mark
      it in progress, write its scene file, render it and record the outcome.
      Every record of the run so far stays on track. */
  method RenderFrame(ghost f0: seq<FrameRow>, ghost s0: Store, ghost files0: map<string, string>,
                     s: Store, files: map<string, string>, job: JobRow,
                     writes: seq<StatusWrite>, calls: seq<RenderCall>, f: int,
                     template: string, enginePath: string, show: Float -> string,
                     renderer: (nat, seq<string>) -> int)
    returns (s': Store, files': map<string, string>, writes': seq<StatusWrite>, calls': seq<RenderCall>)
    requires FrameRow(job.jobId, f, Pending) in s.frames
    requires s.particles == s0.particles && s.textures == s0.textures
    requires RowsTrack(f0, s.frames, calls, job.jobId) && PendingTrack(f0, s.frames, job.jobId, |calls|)
    requires ScenesTrack(files0, files, s0, job, calls, template, show)
    requires CallsTrack(writes, calls, enginePath, job, renderer)
    ensures s' == s.(frames := s'.frames)
    ensures |calls'| == |calls| + 1 && calls'[..|calls|] == calls && calls'[|calls|].frameId == f
    ensures RowsTrack(f0, s'.frames, calls', job.jobId) && PendingTrack(f0, s'.frames, job.jobId, |calls'|)
    ensures ScenesTrack(files0, files', s0, job, calls', template, show)
    ensures CallsTrack(writes', calls', enginePath, job, renderer)
  {
    var sMid := UpdateFrameStatus(s, f, InProgress);
    var textures := GetTextures(sMid);
    files' := WriteSceneGroups(files, sMid, job, f, textures, template, show);
    var cmd := RenderCommand(enginePath, job, PovPath(job.jobName, f), PngPath(job.jobName, f));
    var code := renderer(|calls|, cmd);
    s' := UpdateFrameStatus(sMid, f, FinalStatus(code));
    UpdateLastWriteWins(s, f, InProgress, FinalStatus(code));
    RowsStep(f0, s.frames, calls, job.jobId, f, cmd, code);
    PendingStep(f0, s.frames, calls, job.jobId, f, code, |calls|);
    ScenesStep(files0, files, s0, sMid, job, calls, template, show, f, cmd, code);
    CallsStep(writes, calls, enginePath, job, renderer, f);
    writes' := writes + [StatusWrite(f, InProgress), StatusWrite(f, FinalStatus(code))];
    calls' := calls + [RenderCall(f, cmd, code)];
  }

  /** After `get_total_frames` iterations the job has no pending frame, and
      with distinct frame numbers every one of its rows was pending. */
  lemma LoopDone(f0: seq<FrameRow>, frames: seq<FrameRow>, jobId: int, total: nat)
    requires total == CountFrames(f0, jobId) && PendingTrack(f0, frames, jobId, total)
    ensures !HasPending(frames, jobId)
    ensures DistinctFrameIds(f0, jobId) ==> PendingCount(f0, jobId) == total
  {
    PendingCountPositive(frames, jobId);
  }

  /** When the job runs out of pending frames early and its frame numbers
      are distinct, not every one of its rows was pending. */
  lemma LoopStalled(f0: seq<FrameRow>, frames: seq<FrameRow>, jobId: int, i: nat, total: nat)
    requires total == CountFrames(f0, jobId) && i < total && PendingTrack(f0, frames, jobId, i)
    requires !HasPending(frames, jobId)
    ensures DistinctFrameIds(f0, jobId) ==> PendingCount(f0, jobId) != total
  {
    PendingCountPositive(frames, jobId);
  }

  /** The worker script, start to finish, on one database. */
  method RunWorker(s0: Store, host: HostInfo, files0: map<string, string>, template: string,
                   enginePath: string, show: Float -> string, renderer: (nat, seq<string>) -> int)
    returns (run: Run)
    // the node registers itself first, whatever happens next
    ensures run.store.nodes == InsertNodeInfo(s0, host.hostname, host.ipAddress, host.cpuCores,
                                              host.memoryGb, Active, RenderRole).nodes
    // only frame statuses and the node table change
    ensures run.store.(frames := s0.frames, nodes := s0.nodes, nextNodeId := s0.nextNodeId) == s0
    // it takes the pending job with the smallest id, and stops at once if there is none
    ensures run.job == (if GetNextPendingJob(s0) == [] then None else Some(GetNextPendingJob(s0)[0]))
    ensures run.crash == Some(NoPendingJob) <==> run.job == None
    ensures run.job == None ==> run.calls == [] && run.writes == [] && run.store.frames == s0.frames && run.files == files0
    ensures run.job.Some? ==>
      var job := run.job.value;
      // the loop runs get_total_frames times unless it runs out of pending frames first
      && |run.calls| <= GetTotalFrames(s0, job.jobId)
      && (run.crash == None <==> |run.calls| == GetTotalFrames(s0, job.jobId))
      && (run.crash != None ==> run.crash == Some(NoPendingFrame(|run.calls|)))
      // each frame: 'in progress', the renderer, then 'rendered' on exit code 0 and 'error' otherwise
      && CallsTrack(run.writes, run.calls, enginePath, job, renderer)
      // distinct pending frames of the job were rendered; rows of their frame numbers, in every job,
      // hold the outcome; all other rows are untouched
      && RowsTrack(s0.frames, run.store.frames, run.calls, job.jobId)
      // either way the job is left with no pending frame
      && !HasPending(run.store.frames, job.jobId)
      // with distinct frame numbers it finishes exactly when every frame row of the job was pending
      && (DistinctFrameIds(s0.frames, job.jobId) ==>
            (run.crash == None <==> PendingCount(s0.frames, job.jobId) == GetTotalFrames(s0, job.jobId)))
      // each rendered frame's scene file holds its last non-empty texture group; no other file changes
      && ScenesTrack(files0, run.files, s0, job, run.calls, template, show)
  {
    var s := InsertNodeInfo(s0, host.hostname, host.ipAddress, host.cpuCores, host.memoryGb, Active, RenderRole);
    var jobs := GetNextPendingJob(s);
    if jobs == [] {
      return Run(s, files0, None, [], [], Some(NoPendingJob));
    }
    var job := jobs[0];
    var jobId := job.jobId;
    var total := GetTotalFrames(s, jobId);
    ghost var sNode := s;
    ghost var f0 := s0.frames;
    var files := files0;
    var writes: seq<StatusWrite> := [];
    var calls: seq<RenderCall> := [];
    while |calls| < total
      invariant |calls| <= total
      invariant s == sNode.(frames := s.frames)
      invariant RowsTrack(f0, s.frames, calls, jobId)
      invariant PendingTrack(f0, s.frames, jobId, |calls|)
      invariant ScenesTrack(files0, files, s0, job, calls, template, show)
      invariant CallsTrack(writes, calls, enginePath, job, renderer)
      decreases total - |calls|
    {
      var next := GetNextFrame(s, jobId);
      if next == [] {
        LoopStalled(f0, s.frames, jobId, |calls|, total);
        return Run(s, files, Some(job), writes, calls, Some(NoPendingFrame(|calls|)));
      }
      s, files, writes, calls :=
        RenderFrame(f0, s0, files0, s, files, job, writes, calls, next[0], template, enginePath, show, renderer);
    }
    LoopDone(f0, s.frames, jobId, total);
    run := Run(s, files, Some(job), writes, calls, None);
  }
}
